=== FILE: README.md ===
# NHL statistics ingest, modelled in Dafny

This project models the fetch-and-normalize core of a small NHL statistics
loader, along with the incremental "watermark" run that drives it.

`get_funcs.py` pulls JSON from the league's public API and flattens it into
fixed-shape records:

- divisions and teams;
- players, from each team's roster;
- games, from each team's schedule;
- events, one per play of each game's live feed.

`insert_data.py` performs one run:

1. Read the watermark file, which holds the date of the last run.
2. Overwrite the file with tomorrow's date.
3. Fetch and insert Divisions, Teams, Players and Events, one stage after
   another. The game schedule is asked for the window from the old file
   contents to `str(tomorrow)`.
4. Commit once.

Any exception inside the `__main__` block is printed. The connection is then
closed without a commit.

The model keeps the program's own control flow.

- **Exceptions.** Every Python exception is a `Result` error (`KeyError`,
  `IndexError`, ...).
- **`try`/`except`.** A handler that replaces a missing key by `None`
  (`jerseyNumber`, `secondaryType`) becomes an `Option` field that is passed
  through. The nested handlers of the participant reader are
  `Wrappers.Catch`.
- **JSON bodies.** Each body is a datatype whose subscripted keys are
  `Option`s, so a missing key is a `KeyError` and an index past the end is an
  `IndexError`.
- **Dicts.** Python dicts are association lists that keep insertion order
  (`Dicts.Put` replaces a present key in place and appends a new one).
- **Upstream.** The upstream service is a value (`Upstream.Service`). Every
  fetching operation reports the requests it issued, in order.
- **Insert loops.** Each `for ... in d.values(): cur.execute(...)` loop
  becomes the list of `Rows.Statement`s it binds.
- **Runs.** A run (`Ingest.Run`) turns:
  - today's date,
  - the world (the watermark file plus the committed rows),
  - the service,
  - a description of the database

  into the new world, the ordered trace of its steps, and its outcome.

Each fetching operation is paired with a reference definition written without
the loop:

- `AllEvents`, `AllPlayers` and `AllDates` list every record in upstream
  order, before keying;
- `Dicts.FromPairs`, `Dicts.LastValue` and `Seqs.Dedup` state what a dict
  built by later-overwrites or by first-seen insertion holds.

Lemmas connect the two for all inputs.

Three behaviours of the code's exception handling are easy to misread from
its comments. The model follows what the handlers catch:

- **A gap at participant position 2.** The handler at get_funcs.py:178,
  commented `# Only 1 player involved`, catches only `IndexError`. A second
  participant that exists but lacks `['player']['id']` raises `KeyError`
  instead. That passes every inner handler and reaches the `except KeyError`
  at get_funcs.py:185, commented `# No players involved`. So all four slots
  are emptied, slot 1 included (`EventSlots.GapAtSecondEntry`).
- **An empty `players` list.** The same `except KeyError` at
  get_funcs.py:185 catches only a missing `players` key. An empty list
  raises `IndexError` at `event['players'][0]` (get_funcs.py:159), and no
  handler around that line catches it. `get_events` raises, and the run
  aborts (`Events.NormalizePlay`, `EventSlots.ReadSlots`).
- **Loading.** `__main__` (insert_data.py:121-130) fetches and inserts one
  stage at a time: each `insert_*` call fetches its records and executes
  its rows before the next stage fetches anything. All of it runs inside
  one transaction, with one commit at the end (`Ingest.StagesComplete`,
  `Ingest.CommitAllOrNothing`).

## Model

| member | source | states |
|---|---|---|
| Wrappers.Catch | get_funcs.py:158-193 | `try ... except K` handles only `K`: a success passes through, exception `K` becomes the handler's value, and every other exception propagates unchanged. |
| Dicts.Put | get_funcs.py:34-38 | `d[k] = v` on an insertion-ordered dict: a present key keeps its place and a new key goes last. Afterwards `k` maps to `v` and every other key keeps its value. Keys stay distinct. The same assignment is made at get_funcs.py:61, 96, 123 and 196. |
| Calendar.NextDay | insert_data.py:12 | `today + timedelta(days=1)` is the calendar successor: a valid date whose day number is one more. It raises `OverflowError` exactly on 9999-12-31. |
| Calendar.FormatDateRoundTrip | insert_data.py:14 | The `YYYY-MM-DD` text written to the watermark file reads back as the same date. |
| Calendar.FormatDate | insert_data.py:14 | The watermark text is ten characters with dashes at positions 4 and 7. |
| Text.Split | get_funcs.py:125-126 | `str.split(' ')` gives one piece more than there are spaces. No piece contains a space, and joining the pieces with spaces gives back the input. |
| Text.SplitHead | get_funcs.py:125-126 | When the name contains a space, the first piece is everything before the first space, and piece 0, a space and piece 1 form a prefix of the input that ends at a space or at the end: piece 1 is a whole token. |
| Text.SplitNoSep | get_funcs.py:126 | A name without a space splits into exactly one piece, itself. |
| Text.IntToStringRoundTrip | get_funcs.py:78 | `str(gamePk)` loses nothing: parsing it back gives the number. |
| Text.IntToStringInjective | get_funcs.py:78-79 | Two game numbers have the same text id exactly when they are equal, so deduplicating text ids deduplicates games. |
| League.NormalizeDivision | get_funcs.py:33-38 | A division entry maps to a record exactly when it has `id` and `name`; otherwise `KeyError`. |
| League.GetDivisions | get_funcs.py:26-39 | One request. It succeeds exactly when the body lists divisions and every entry has its keys. The dict's keys are the listed ids, deduplicated in first-seen order, and each key holds the last division listed under it, keyed by its own `division_key`. |
| League.NormalizeTeam | get_funcs.py:60-66 | A team entry maps to a record exactly when `id`, `name`, `abbreviation` and `division.id` are all present; otherwise `KeyError`. |
| League.GetTeamIds | get_funcs.py:42-50 | One request. It succeeds exactly when every listed team has an `id`, and the ids come in listing order, duplicates kept. |
| League.GetTeams | get_funcs.py:53-67 | One request. Keys are the listed ids in first-seen order, and each holds the last team listed with that id. |
| League.TeamIdsMatchTeams | get_funcs.py:42-67 | When `get_teams` succeeds on a body, `get_team_ids` succeeds on it too, and the ids it returns are exactly the keys of the team dict, taken as a set. |
| Players.NormalizePlayer | get_funcs.py:116-129 | A roster entry maps to a player exactly when it has a person id and a full name containing a space. Otherwise: `KeyError` exactly when the id or the full name is missing, and `IndexError` for a one-word name under a present id. The player keeps the entry's id, number (`None` exactly when the key is missing) and team. |
| Players.NamesFromFullName | get_funcs.py:125-126 | The first name is the full name up to its first space. The last name is the whole second token: it runs to the next space or to the end. Neither contains a space, and first, space, last is a prefix of the full name. |
| Players.SingleTokenNameFails | get_funcs.py:126 | A full name without a space raises `IndexError`. |
| Players.RosterOf | get_funcs.py:116 | Reading `teams[0]['roster']['roster']` succeeds exactly when the team list is present and non-empty and its first team has a roster, and then yields that roster. Otherwise `KeyError`, or `IndexError` on an empty team list. |
| Players.GetPlayers | get_funcs.py:107-130 | It issues a prefix of the per-team roster requests: the whole sequence on success, cut at the first failure otherwise. On success every player is keyed by its own id, with no key twice. |
| Players.PutRoster | get_funcs.py:116-129 | The roster loop keeps every player stored under its own id with no key twice. What it assigns is stated by `Players.PutRosterIsPutAll`. |
| Players.PutRosterIsPutAll | get_funcs.py:116-129 | One roster's loop succeeds exactly when every entry normalizes, and then equals putting the normalized players one after another. |
| Players.GetPlayersLastWins | get_funcs.py:107-130 | Against the reference list of all players in roster order: same requests, same success. Keys are the player ids in first-seen order, each holding the player from the last roster entry with that id. |
| Schedule.DateGameId | get_funcs.py:78 | A schedule date yields the text of its first game's `gamePk`. It fails with `KeyError` or `IndexError` when that game or key is missing. |
| Schedule.DateGame | get_funcs.py:96-103 | The record is built exactly when the date lists a first game carrying all five fields, and is then that game's home and away ids, scores and date under the given id. Otherwise `KeyError`, or `IndexError` on an empty game list. |
| Schedule.CollectIds | get_funcs.py:77-80 | The inner loop of `get_game_ids` only appends: the ids already listed stay in place, and a list without repeats gains none. A failure is `KeyError` or `IndexError`. Its result is stated by `Schedule.CollectIdsIsDedup`. |
| Schedule.FirstGameOnly | get_funcs.py:94-102 | Only `games[0]` of a date is read: further games on the same date change neither the id nor the record. |
| Schedule.GetGameIds | get_funcs.py:70-81 | It issues a prefix of the per-team schedule requests, all for the given window, and the whole sequence on success. On success the ids are distinct. |
| Schedule.CollectIdsIsDedup | get_funcs.py:77-80 | The inner loop, started from a deduplicated list, succeeds exactly when every date yields an id, and yields the deduplication of the combined ids. |
| Schedule.GameIdsFirstSeen | get_funcs.py:70-81 | Against the reference list of all dates of all teams: it succeeds exactly when every schedule was fetched and every date names a game id. It then issues the same requests, and the result is every game id in first-seen order with no repeats. |
| Schedule.GetGames | get_funcs.py:84-104 | It issues a prefix of the per-team schedule requests, all for the given window, and all of them on success. On success every game is keyed by its own id, with no key twice. |
| Schedule.PutFirstSightings | get_funcs.py:93-103 | The inner loop of `get_games` keeps every game stored under its own id with no key twice. Its success, keys and values are stated by `Schedule.FirstSightingReadable`, `Schedule.FirstSightingKeys` and `Schedule.FirstSightingWins`. |
| Schedule.FirstSightingReadable | get_funcs.py:93-103 | The games loop succeeds exactly when every date yields an id and each id's first date also yields a full record. Fields of later sightings are never read. |
| Schedule.FirstSightingKeys | get_funcs.py:93-103 | The games dict's keys are the dates' ids in first-seen order. |
| Schedule.FirstSightingWins | get_funcs.py:93-103 | Every id in the dict holds the record built from the first date that showed it: the first sighting wins. |
| Schedule.GamesFirstWins | get_funcs.py:84-104 | Across all teams: it succeeds exactly when the reference dates were fetched and the games loop over all of them succeeds. On success it issues the same requests, and its dict is that loop's, so keys are in first-seen order and each game is its first sighting. |
| Schedule.GamesKeysAreGameIds | get_funcs.py:70-104 | When `get_games` succeeds, `get_game_ids` over the same teams and window succeeds too, and returns exactly the games dict's keys, in order. |
| EventSlots.ReadParticipant | get_funcs.py:159-169 | Reading position `i` succeeds exactly when the entry exists and has both keys. A missing entry is `IndexError`; a missing key is `KeyError`. |
| EventSlots.FillFrom | get_funcs.py:161-184 | Slots `i+1..4` are filled in order and are contiguous. The only exception that escapes them is `KeyError`. |
| EventSlots.ReadSlots | get_funcs.py:157-193 | The four slots are contiguous. The only failure is `IndexError` on an empty participant list. A play without a `players` key has no slots. |
| EventSlots.SlotsWellFormed | get_funcs.py:158-169 | With well-formed entries, the first min(n, 4) slots hold the first min(n, 4) participants, in order, and the rest are empty. |
| EventSlots.SlotsMalformedWipe | get_funcs.py:158-193 | A missing key in any of the first four entries empties every slot. |
| EventSlots.SlotsIgnoreTail | get_funcs.py:158-169 | Entries past the fourth are never read. |
| EventSlots.GapAtSecondEntry | get_funcs.py:158-193 | A second entry without a player id empties all slots, slot 1 included. |
| Events.NormalizePlay | get_funcs.py:146-212 | A play maps to an event exactly when its required fields are present and its participant list is not empty. The primary type is always the feed's `event`. The secondary type is `None` exactly when its key is missing, and is otherwise copied. A play missing a required key fails with `KeyError`, even when its list is also empty, since those keys are read first. A play with every key but an empty participant list fails with `IndexError`. |
| Events.GetEvents | get_funcs.py:133-214 | It issues a prefix of the per-game feed requests: all of them on success. On success every event is keyed by its (game, event code) pair, with no key twice. |
| Events.PutPlays | get_funcs.py:143-212 | The play loop keeps every event stored under its own (game, event code) key with no key twice. What it assigns is stated by `Events.PutPlaysIsPutAll`. |
| Events.PutPlaysIsPutAll | get_funcs.py:143-212 | One feed's loop succeeds exactly when every play normalizes, and then equals putting the events one after another under their keys. |
| Events.GetEventsLastWins | get_funcs.py:133-214 | Against the reference list of all events in feed order: same requests, same success. Keys are the (game, event code) pairs in first-seen order, each holding the last event with that key. |
| Rows.DivisionRow | insert_data.py:22-29 | A division becomes a 2-column Divisions insert keyed by `division_key` that reads back as the same division. |
| Rows.TeamRow | insert_data.py:36-44 | A team becomes a 4-column Teams insert keyed by its id that reads back as the same team. |
| Rows.PlayerRow | insert_data.py:51-61 | A player becomes a 5-column Players insert that reads back as the same player. The number column is NULL exactly when the player has no number. |
| Rows.GameRow | insert_data.py:69-80 | A game becomes a 6-column Games insert keyed by its text id that reads back as the same game. |
| Rows.EventRow | insert_data.py:88-108 | An event becomes a 15-column Events insert that starts with (game, event id). Its eight slot columns read back as the same four slots. The secondary type is NULL exactly when absent, and slot k's player column is NULL exactly when slot k is empty. |
| Rows.AllSlotColumns | insert_data.py:98-105 | The four slots become eight columns, slot 1 first, each slot as its (player, role) pair, and the eight columns read back as the same four slots. |
| Rows.SlotColumns | insert_data.py:98-105 | A slot becomes a (player, role) column pair that is NULL in both columns exactly when the slot is empty, and reads back as the slot. |
| Ingest.DivisionsStage | insert_data.py:18-29 | `insert_divisions` issues the divisions request. Its rows exist exactly when `get_divisions` succeeds, and are that dict's values in dict order, all for the Divisions table. |
| Ingest.TeamsStage | insert_data.py:32-44 | `insert_teams`: the teams request, then the `get_teams` values in dict order as Teams rows. |
| Ingest.PlayersStage | insert_data.py:47-61 | `insert_players` issues exactly the requests of `get_team_ids`, followed, when that succeeds, by those of `get_players` over the ids. It issues no schedule request. Its rows are the players of `get_players(get_team_ids())` in dict order. |
| Ingest.EventsStage | insert_data.py:83-108 | `insert_events` issues exactly the requests of `get_team_ids`, then those of `get_game_ids`, then those of `get_events`. Each part comes only if the part before it succeeded. Every schedule request carries the run's window. Its rows are the events of `get_events(get_game_ids(...))` in dict order. |
| Ingest.EventRowsCarry | insert_data.py:90-108 | Every row `insert_events` builds from the events dict reads back as the event at the same position: no field is lost or moved. |
| Ingest.GamesStage | insert_data.py:64-80 | `insert_games`, which is defined but never run, issues exactly the requests of `get_team_ids`, followed, when that succeeds, by those of `get_games`. Its schedule requests carry the window, and its rows are the games in dict order as Games rows. |
| Ingest.ExecuteAll | insert_data.py:90-108 | The rows before the first one the server refuses are executed, in order. The refusal raises `DatabaseError`, and no error occurs exactly when no row is refused. |
| Ingest.RunStage | insert_data.py:18-108 | One `insert_*` call records its requests and then one step per executed row. A fetch error executes nothing and is the stage's error. Otherwise at most its rows are executed, and a failure is `DatabaseError`. `Ingest.StageSteps` states the rest. |
| Ingest.RunStages | insert_data.py:121-128 | The stages run in turn, and a failure implies some stage ran. Its own contract only bounds the executed rows by the steps. `Ingest.StagesComplete` states the success case, and `Ingest.StagesStopAtFirstFailure` the failure case. |
| Ingest.StagesComplete | insert_data.py:121-130 | The stages get through exactly when every stage fetched its rows and none is refused. The rows executed are then all stages' rows in order, and they are exactly the executes recorded in the trace. |
| Ingest.StagesStopAtFirstFailure | insert_data.py:121-133 | When the stages fail, there is a stage k before which every stage got through, and the failure is stage k's. The steps recorded are exactly those of stages 0 to k, so no later stage fetches or executes anything: the exception leaves the `try` at once. |
| Ingest.StagesInOrder | insert_data.py:121-128 | Stages in increasing table order execute rows table by table, never into a table no stage targets. Every schedule request they issue carries the window. |
| Ingest.MainStages | insert_data.py:121-128 | `__main__` runs four stages: Divisions, Teams, Players, Events, in that order, and none of them is Games. |
| Ingest.MainStagesInOrder | insert_data.py:121-128 | The four stages of `__main__` come in schema order (Divisions, Teams, Players, Events), each keeping its rows to its own table and its schedule requests to the window, and none of them targets Games. |
| Ingest.Session | insert_data.py:111-137 | The `__main__` block never touches the watermark, never crashes uncaught, and leaves the committed rows alone unless it completes. It completes only if every stage got through and the commit succeeded. An aborted run carries the error that stopped it: `ConfigMissing`, `ConnectFailed`, the stages' failure, or `DatabaseError` from the commit. That error is reported as the last step, or, once connected, just before the closing of the connection. |
| Ingest.SessionFirstFailure | insert_data.py:121-137 | A connected session stopped by a stage is aborted with the error of the first stage that failed. Its trace is the given steps, the steps of the stages up to that one, the report of that error, and the close. |
| Ingest.Run | insert_data.py:6-15 | A run crashes exactly when the file is missing or tomorrow overflows, and then changes nothing. Otherwise the file afterwards holds tomorrow's text, whatever the outcome. When the file exists, the run's first step reads it. |
| Ingest.SessionSteps | insert_data.py:111-137 | After the two watermark steps, the `__main__` block reads and writes the file no more, fetches only within the window, and inserts table by table, never into Games. No fetch or insert comes before the write. |
| Ingest.SessionCommits | insert_data.py:114-137 | A completed session executed exactly the stages' rows after the watermark steps, and added exactly those rows to the committed ones. |
| Ingest.SessionCloses | insert_data.py:129-137 | A commit step appears exactly on completion. The connection is closed exactly when config and connect succeeded, whether the stages then fail or not. |
| Ingest.SessionAllOrNothing | insert_data.py:114-137 | A session after the watermark steps leaves the committed rows alone unless it completes, and then adds exactly the rows its trace executed. |
| Ingest.SessionCompletes | insert_data.py:114-134 | A session completes exactly when config and connect succeed, every stage fetches its rows, no row is refused and the commit succeeds. It then commits all stages' rows in order. |
| Ingest.WatermarkAdvances | insert_data.py:6-15 | Whatever the outcome, after a run the file holds a date string that parses to the day after today. A missing file or a run on 9999-12-31 crashes and leaves the file unchanged. |
| Ingest.WatermarkDependsOnTodayOnly | insert_data.py:11-15 | The new watermark depends on today's date alone: not on the old contents, the upstream or the database. |
| Ingest.RunAfterWatermark | insert_data.py:6-15 | Once the file exists and tomorrow exists, the run writes tomorrow's text, reads and writes the file only in its first two steps, fetches only within the window from the old contents to that text, and inserts table by table, never into Games. |
| Ingest.WatermarkWrittenFirst | insert_data.py:6-15 | The file is read at step 0 and written at step 1, with the value it keeps. No fetch or insert happens before the write, and the file is not touched again, even when the run then fails. |
| Ingest.FetchWindow | insert_data.py:86 | Every schedule request of the run spans from the old watermark contents, verbatim, to the date string the run just wrote. |
| Ingest.TablesInScriptOrder | insert_data.py:121-128 | Rows are executed table by table, Divisions, Teams, Players, Events, and never into Games. |
| Ingest.CommitAllOrNothing | insert_data.py:114-137 | Committed rows change only when the run completes, and then by exactly the rows its trace executed. A commit step appears exactly on completion, and the connection is closed exactly when it was opened. |
| Ingest.CompletesExactly | insert_data.py:111-137 | A run completes exactly when all of the following hold: the file exists, tomorrow exists, config and connect succeed, every stage fetches its records, no row is refused, and the commit succeeds. It then commits all four stages' rows in order. |
| Ingest.WindowExample | insert_data.py:12-14 | With the file holding "2023-01-01" and today 2023-01-05, the run writes "2023-01-06" and asks for games from "2023-01-01" to "2023-01-06". |

## Left out

- HTTP and JSON decoding. The upstream is a `Service` value. A request with
  no body in it fails with `RequestFailed`, which stands for every exception
  `requests` or `.json()` raises. A repeated request, such as the teams list
  that three stages fetch, is assumed to get the same answer each time.
- JSON value types. Each field has the type the code uses it at. A body
  whose values have other types (`TypeError`s) is not modelled. Nested key
  paths are flattened into one optional field, since a missing intermediate
  object and a missing leaf both raise `KeyError`.
- psycopg2 and SQL. The database is `Ingest.Db`:
  - whether `config()` finds its settings (config.py is not part of this
    model);
  - whether `connect` succeeds;
  - which INSERTs the server refuses;
  - whether the commit succeeds.

  `cur.close()` is not modelled, and neither are failures of `conn.close()`.
- create_tables.py and create_tables_no_fks.py. The DDL is not part of this
  model. Only the column count and order of each INSERT are.
- `get_conferences`. Nothing calls it.
- File I/O. The watermark file is an optional string cell, and writing it
  always succeeds. `newline=''` means no newline translation, so the contents
  are used verbatim.
- `date.today()`. It is the parameter `today`.
- Requests that never return. `request(url=..., method='get')` has no timeout, so
  in the source a stalled server hangs the run. A `Service` value always
  answers or fails.
- The error printout. It is a `Report(error)` step.
- Calendar.FormatDate: renders both `strftime('%Y-%m-%d')` and `str(date)`
  with a four-digit, zero-padded year. On some platforms `strftime` does not
  pad years below 1000, so there the written watermark and the window end
  could differ.

=== FILE: calendar.dfy ===
/**
  The proleptic Gregorian dates of Python's `datetime.date` (years 1 to
  9999), the one-day step `today + timedelta(days=1)`, and the
  `YYYY-MM-DD` text the watermark file holds.
 */
module Calendar {
  import opened Wrappers
  import opened Text

  datatype Date = Date(year: int, month: int, day: int)

  const MaxYear := 9999

  predicate IsLeap(y: int) {
    y % 4 == 0 && (y % 100 != 0 || y % 400 == 0)
  }

  function DaysInMonth(y: int, m: int): int
    requires 1 <= m <= 12
  {
    if m == 2 then (if IsLeap(y) then 29 else 28)
    else if m == 4 || m == 6 || m == 9 || m == 11 then 30
    else 31
  }

  predicate Valid(d: Date) {
    && 1 <= d.year <= MaxYear
    && 1 <= d.month <= 12
    && 1 <= d.day <= DaysInMonth(d.year, d.month)
  }

  /** Days in the years before `y`, counted from 0001-01-01. */
  function DaysBeforeYear(y: int): int
    requires y >= 1
  {
    var p := y - 1;
    365 * p + p / 4 - p / 100 + p / 400
  }

  /** Days in the months of year `y` before month `m`. */
  function DaysBeforeMonth(y: int, m: int): int
    requires 1 <= m <= 12
  {
    [0, 31, 59, 90, 120, 151, 181, 212, 243, 273, 304, 334][m - 1]
      + (if m > 2 && IsLeap(y) then 1 else 0)
  }

  /** `date.toordinal()`: 0001-01-01 is day 1. */
  function DayNumber(d: Date): int
    requires Valid(d)
  {
    DaysBeforeYear(d.year) + DaysBeforeMonth(d.year, d.month) + d.day
  }

  /**
    `d + timedelta(days=1)`: the calendar successor, or `OverflowError` on
    the last representable date.
   */
  function NextDay(d: Date): (r: Result<Date, Error>)
    requires Valid(d)
    ensures r.Err? <==> d == Date(MaxYear, 12, 31)
    ensures r.Err? ==> r.error == OverflowError
    ensures r.Ok? ==> Valid(r.value) && DayNumber(r.value) == DayNumber(d) + 1
  {
    if d.day < DaysInMonth(d.year, d.month) then
      Ok(d.(day := d.day + 1))
    else if d.month < 12 then
      MonthStep(d.year, d.month);
      Ok(Date(d.year, d.month + 1, 1))
    else if d.year < MaxYear then
      YearStep(d.year);
      Ok(Date(d.year + 1, 1, 1))
    else
      Err(OverflowError)
  }

  lemma MonthStep(y: int, m: int)
    requires 1 <= m < 12
    ensures DaysBeforeMonth(y, m + 1) == DaysBeforeMonth(y, m) + DaysInMonth(y, m)
  {
  }

  lemma YearStep(y: int)
    requires y >= 1
    ensures DaysBeforeYear(y + 1) == DaysBeforeYear(y) + (if IsLeap(y) then 366 else 365)
  {
    assert y / 4 - (y - 1) / 4 == (if y % 4 == 0 then 1 else 0);
    assert y / 100 - (y - 1) / 100 == (if y % 100 == 0 then 1 else 0);
    assert y / 400 - (y - 1) / 400 == (if y % 400 == 0 then 1 else 0);
  }

  /** `d.strftime('%Y-%m-%d')`, and equally `str(d)`. */
  function FormatDate(d: Date): (s: string)
    requires Valid(d)
    ensures |s| == 10 && s[4] == '-' && s[7] == '-'
  {
    PadDigits(d.year, 4) + "-" + PadDigits(d.month, 2) + "-" + PadDigits(d.day, 2)
  }

  /** Reading a `YYYY-MM-DD` string back into a date, when it has that shape. */
  function ParseDate(s: string): Option<Date> {
    if |s| == 10 && s[4] == '-' && s[7] == '-'
       && (forall i | 0 <= i < 10 && i != 4 && i != 7 :: IsDigit(s[i]))
    then
      var d := Date(ParseDigits(s[..4]), ParseDigits(s[5..7]), ParseDigits(s[8..]));
      if Valid(d) then Some(d) else None
    else None
  }

  /** The text written to the watermark file identifies the date uniquely. */
  lemma FormatDateRoundTrip(d: Date)
    requires Valid(d)
    ensures ParseDate(FormatDate(d)) == Some(d)
  {
    var s := FormatDate(d);
    assert s[..4] == PadDigits(d.year, 4);
    assert s[5..7] == PadDigits(d.month, 2);
    assert s[8..] == PadDigits(d.day, 2);
  }
}

=== FILE: dicts.dfy ===
/**
  Python dictionaries as the normalizer uses them: an insertion-ordered list
  of entries with at most one entry per key. Assigning to a present key
  replaces its value where it stands; assigning to a new key appends. The
  `.values()` iteration of the insert stages follows this order.
 */
module Dicts {
  import opened Wrappers
  import opened Seqs

  type Dict<K, V> = seq<(K, V)>

  function Keys<K, V>(d: Dict<K, V>): (ks: seq<K>)
    ensures |ks| == |d|
    ensures forall i | 0 <= i < |d| :: ks[i] == d[i].0
  {
    seq(|d|, i requires 0 <= i < |d| => d[i].0)
  }

  function Values<K, V>(d: Dict<K, V>): (vs: seq<V>)
    ensures |vs| == |d|
    ensures forall i | 0 <= i < |d| :: vs[i] == d[i].1
  {
    seq(|d|, i requires 0 <= i < |d| => d[i].1)
  }

  /** `d.get(k)`. */
  function Get<K(==), V>(d: Dict<K, V>, k: K): (r: Option<V>)
    ensures r.None? <==> k !in Keys(d)
    ensures r.Some? ==> exists i | 0 <= i < |d| :: d[i] == (k, r.value)
  {
    if k in Keys(d) then Some(d[FirstIndex(Keys(d), k)].1) else None
  }

  /** `d[k] = v`. */
  function Put<K(==, !new), V>(d: Dict<K, V>, k: K, v: V): (r: Dict<K, V>)
    ensures k in Keys(d) ==> Keys(r) == Keys(d)
    ensures k !in Keys(d) ==> Keys(r) == Keys(d) + [k]
    ensures Distinct(Keys(d)) ==> Distinct(Keys(r))
    ensures Get(r, k) == Some(v)
    ensures forall k' | k' != k :: Get(r, k') == Get(d, k')
  {
    if k in Keys(d) then
      var r := d[FirstIndex(Keys(d), k) := (k, v)];
      assert Keys(r) == Keys(d);
      r
    else
      var r := d + [(k, v)];
      assert Keys(r) == Keys(d) + [k];
      forall k' | k' != k && k' in Keys(d)
        ensures FirstIndex(Keys(r), k') == FirstIndex(Keys(d), k')
      {
        FirstIndexAppend(Keys(d), k, k');
      }
      r
  }

  /** Appending an element does not move the first occurrence of another. */
  lemma {:induction false} FirstIndexAppend<T>(s: seq<T>, x: T, y: T)
    requires y in s
    ensures y in s + [x] && FirstIndex(s + [x], y) == FirstIndex(s, y)
  {
    var k := FirstIndex(s, y);
    assert (s + [x])[k] == y;
    var k' := FirstIndex(s + [x], y);
    assert k' <= k;
    assert s[k'] == y;
  }

  /** Each value paired with its key. */
  function KeyBy<K, V>(vs: seq<V>, key: V -> K): (ps: seq<(K, V)>)
    ensures |ps| == |vs|
    ensures forall i | 0 <= i < |vs| :: ps[i] == (key(vs[i]), vs[i])
  {
    if vs == [] then [] else KeyBy(vs[..|vs| - 1], key) + [(key(vs[|vs| - 1]), vs[|vs| - 1])]
  }

  lemma KeyByAppend<K, V>(a: seq<V>, b: seq<V>, key: V -> K)
    ensures KeyBy(a + b, key) == KeyBy(a, key) + KeyBy(b, key)
  {
    var l := KeyBy(a + b, key);
    var r := KeyBy(a, key) + KeyBy(b, key);
    assert |l| == |r|;
    forall i | 0 <= i < |l|
      ensures l[i] == r[i]
    {
      if i < |a| {
        assert (a + b)[i] == a[i];
      } else {
        assert (a + b)[i] == b[i - |a|];
      }
    }
  }

  /** The value paired with `k` by the last pair in `ps` that mentions `k`. */
  function LastValue<K(==, !new), V>(ps: seq<(K, V)>, k: K): Option<V> {
    if ps == [] then None
    else if ps[|ps| - 1].0 == k then Some(ps[|ps| - 1].1)
    else LastValue(ps[..|ps| - 1], k)
  }

  /** `for (k, v) in ps: d[k] = v`. */
  function PutAll<K(==, !new), V>(d: Dict<K, V>, ps: seq<(K, V)>): (r: Dict<K, V>)
    ensures Distinct(Keys(d)) ==> Distinct(Keys(r))
  {
    if ps == [] then d
    else Put(PutAll(d, ps[..|ps| - 1]), ps[|ps| - 1].0, ps[|ps| - 1].1)
  }

  /** Assigning one more keyed value is one more `Put`. */
  lemma PutAllKeyBySnoc<K(!new), V>(d: Dict<K, V>, vs: seq<V>, v: V, key: V -> K)
    ensures PutAll(d, KeyBy(vs + [v], key)) == Put(PutAll(d, KeyBy(vs, key)), key(v), v)
  {
    var ps := KeyBy(vs + [v], key);
    assert (vs + [v])[..|vs|] == vs;
    assert ps[..|ps| - 1] == KeyBy(vs, key);
  }

  /** The dict built by assigning every pair of `ps` in turn to an empty dict. */
  function FromPairs<K(==, !new), V>(ps: seq<(K, V)>): (r: Dict<K, V>)
    ensures Distinct(Keys(r))
  {
    PutAll([], ps)
  }

  /** Assigning the pairs of `a + b` is assigning those of `a`, then those of `b`. */
  lemma {:induction false} PutAllAppend<K(!new), V>(d: Dict<K, V>, a: seq<(K, V)>, b: seq<(K, V)>)
    ensures PutAll(d, a + b) == PutAll(PutAll(d, a), b)
    decreases |b|
  {
    if b == [] {
      assert a + b == a;
    } else {
      assert (a + b)[..|a + b| - 1] == a + b[..|b| - 1];
      PutAllAppend(d, a, b[..|b| - 1]);
    }
  }

  /**
    Building a dict by assignment keeps one entry per key, in first-seen key
    order, holding the value of the LAST assignment to that key.
   */
  lemma {:induction false} FromPairsLastWins<K(!new), V>(ps: seq<(K, V)>)
    ensures Keys(FromPairs(ps)) == Dedup(Keys(ps))
    ensures forall k :: Get(FromPairs(ps), k) == LastValue(ps, k)
  {
    if ps != [] {
      var p := ps[..|ps| - 1];
      FromPairsLastWins(p);
      assert Keys(ps)[..|ps| - 1] == Keys(p);
    }
  }

  /** A dict built from values keyed by `key` stores every value under its own key. */
  lemma FromPairsKeyed<K(!new), V>(vs: seq<V>, key: V -> K)
    ensures var d := FromPairs(KeyBy(vs, key));
            forall i | 0 <= i < |d| :: d[i].0 == key(d[i].1)
  {
    var d := FromPairs(KeyBy(vs, key));
    FromPairsLastWins(KeyBy(vs, key));
    forall i | 0 <= i < |d|
      ensures d[i].0 == key(d[i].1)
    {
      var k := d[i].0;
      assert k in Keys(d);
      LastValueKeyed(vs, key, k);
      FirstIndexOfDistinct(Keys(d), i);
    }
  }

  lemma LastValueKeyed<K(!new), V>(vs: seq<V>, key: V -> K, k: K)
    ensures LastValue(KeyBy(vs, key), k).Some? ==> key(LastValue(KeyBy(vs, key), k).value) == k
  {
    if vs != [] {
      var p := vs[..|vs| - 1];
      assert KeyBy(vs, key)[..|vs| - 1] == KeyBy(p, key);
      LastValueKeyed(p, key, k);
    }
  }

  lemma FirstIndexOfDistinct<T>(s: seq<T>, i: nat)
    requires Distinct(s) && i < |s|
    ensures FirstIndex(s, s[i]) == i
  {
  }
}

=== FILE: event_slots.dfy ===
/**
  The participant slots of an event (get_funcs.py, `get_events`). The source
  reads `event['players'][i]` for i = 0..3 inside four nested `try` blocks:
  the outer one catches only `KeyError`, the three inner ones catch only
  `IndexError`. `FillFrom` and `ReadSlots` follow that nesting; the lemmas
  below characterise what it amounts to.
 */
module EventSlots {
  import opened Wrappers
  import opened Raw
  import opened Records

  /** `event['players'][i]['player']['id']`, then `event['players'][i]['playerType']`. */
  function ReadParticipant(ps: seq<Participant>, i: nat): (r: Result<Slot, Error>)
    ensures r.Ok? <==> i < |ps| && WellFormed(ps[i])
    ensures r.Ok? ==> r.value == SlotOf(ps[i])
    ensures r.Err? ==> (r.error == IndexError <==> i >= |ps|)
    ensures r.Err? ==> r.error == IndexError || r.error == KeyError
  {
    var p :- At(ps, i);
    var id :- Field(p.playerId);
    var role :- Field(p.playerType);
    Ok(Slot(id, role))
  }

  predicate WellFormed(p: Participant) {
    p.playerId.Some? && p.playerType.Some?
  }

  function SlotOf(p: Participant): Slot
    requires WellFormed(p)
  {
    Slot(p.playerId.value, p.playerType.value)
  }

  function Empty(n: nat): (s: seq<Option<Slot>>)
    ensures |s| == n && forall k | 0 <= k < n :: s[k].None?
  {
    seq(n, _ => None)
  }

  /**
    The `try` block that fills slots i+1..4 (i = 1, 2, 3) with its
    `except IndexError` handler, which empties those slots. A `KeyError`
    raised inside is not handled here and propagates.
   */
  function FillFrom(ps: seq<Participant>, i: nat): (r: Result<seq<Option<Slot>>, Error>)
    requires 1 <= i <= 3
    ensures r.Err? ==> r.error == KeyError
    ensures r.Ok? ==> |r.value| == 4 - i && Contiguous(r.value)
    decreases 4 - i
  {
    var attempt :=
      var s :- ReadParticipant(ps, i);
      var rest :- if i == 3 then Ok([]) else FillFrom(ps, i + 1);
      Ok([Some(s)] + rest);
    Catch(attempt, IndexError, Empty(4 - i))
  }

  /**
    Slots 1..4 of one event: the outer `try` with its `except KeyError`
    handler, which empties all four slots. The `IndexError` of a present but
    empty `players` list is handled by nobody and escapes.
   */
  function ReadSlots(players: Option<seq<Participant>>): (r: Result<Slots, Error>)
    ensures r.Ok? ==> Contiguous(r.value)
    ensures r.Err? <==> players == Some([])
    ensures r.Err? ==> r.error == IndexError
    ensures players.None? ==> r == Ok(NoSlots)
  {
    var attempt: Result<Slots, Error> :=
      var ps :- Field(players);
      var first :- ReadParticipant(ps, 0);
      var rest :- FillFrom(ps, 1);
      Ok([Some(first)] + rest);
    Catch(attempt, KeyError, NoSlots)
  }

  // ---- what the nesting amounts to ----

  /** With every participant the event reads well-formed, slots i+1..4 copy them in order. */
  lemma {:induction false} FillFromWellFormed(ps: seq<Participant>, i: nat)
    requires 1 <= i <= 3
    requires forall k | i <= k < |ps| && k < 4 :: WellFormed(ps[k])
    ensures FillFrom(ps, i).Ok?
    ensures forall j | 0 <= j < 4 - i ::
              FillFrom(ps, i).value[j] == if i + j < |ps| then Some(SlotOf(ps[i + j])) else None
    decreases 4 - i
  {
    if i < 3 && i < |ps| {
      FillFromWellFormed(ps, i + 1);
    }
  }

  /** A malformed participant the event reads makes the slots from i+1 on raise `KeyError`. */
  lemma {:induction false} FillFromMalformed(ps: seq<Participant>, i: nat, k: nat)
    requires 1 <= i <= k < |ps| && k < 4
    requires !WellFormed(ps[k])
    ensures FillFrom(ps, i) == Err(KeyError)
    decreases 4 - i
  {
    if i < k {
      FillFromMalformed(ps, i + 1, k);
    }
  }

  /**
    For a non-empty list whose first min(n, 4) entries are well-formed,
    exactly min(n, 4) slots are filled, in list order, each pairing
    `player.id` with `playerType`.
   */
  lemma SlotsWellFormed(ps: seq<Participant>)
    requires |ps| >= 1
    requires forall k | 0 <= k < |ps| && k < 4 :: WellFormed(ps[k])
    ensures ReadSlots(Some(ps)).Ok?
    ensures forall k | 0 <= k < 4 ::
              ReadSlots(Some(ps)).value[k] == if k < |ps| then Some(SlotOf(ps[k])) else None
  {
    FillFromWellFormed(ps, 1);
  }

  /**
    One malformed entry among those read, at any of positions 1..4, empties
    all four slots, slot 1 included.
   */
  lemma SlotsMalformedWipe(ps: seq<Participant>, k: nat)
    requires k < |ps| && k < 4
    requires !WellFormed(ps[k])
    ensures ReadSlots(Some(ps)) == Ok(NoSlots)
  {
    if k > 0 {
      FillFromMalformed(ps, 1, k);
    }
  }

  /** Entries past the fourth are never read. */
  lemma SlotsIgnoreTail(ps: seq<Participant>)
    requires |ps| > 4
    ensures ReadSlots(Some(ps)) == ReadSlots(Some(ps[..4]))
  {
    if forall k | 0 <= k < 4 :: WellFormed(ps[k]) {
      SlotsWellFormed(ps);
      SlotsWellFormed(ps[..4]);
    } else {
      var k :| 0 <= k < 4 && !WellFormed(ps[k]);
      SlotsMalformedWipe(ps, k);
      SlotsMalformedWipe(ps[..4], k);
    }
  }

  /**
    A "gap" at position 2 (a second entry without a player id) does not keep
    slot 1: the `KeyError` reaches the outer handler and every slot is empty.
   */
  lemma GapAtSecondEntry(a: Participant, b: Participant, c: Participant)
    requires WellFormed(a) && WellFormed(c) && b.playerId.None?
    ensures ReadSlots(Some([a, b, c])) == Ok(NoSlots)
  {
    SlotsMalformedWipe([a, b, c], 1);
  }
}

=== FILE: events.dfy ===
/**
  `get_events` (get_funcs.py): one live feed request per game id, every play
  of the feed normalized into an `Event`, and the events collected in a dict
  keyed by (game id, event code), where a later play with the same key
  overwrites the earlier one.
 */
module Events {
  import opened Wrappers
  import opened Seqs
  import opened Dicts
  import opened Raw
  import opened Records
  import opened Upstream
  import opened EventSlots

  type EventKey = (string, string)

  /**
    One play of game `game`. Every field is required except `secondaryType`
    (a missing key is caught and becomes `None`) and the participant list
    (see `ReadSlots`).
   */
  function NormalizePlay(game: string, play: Play): (r: Result<Event, Error>)
    ensures r.Ok? <==> Readable(play) && play.players != Some([])
    ensures r.Ok? ==> && r.value.game == game
                      && r.value.eventId == play.result.value.eventCode.value
                      && r.value.description == play.result.value.description.value
                      && r.value.primaryType == play.result.value.event.value
                      && r.value.period == play.about.value.period.value
                      && r.value.timeRemaining == play.about.value.periodTimeRemaining.value
                      && r.value.slots == ReadSlots(play.players).value
    ensures r.Ok? ==> (r.value.secondaryType.None? <==> play.result.value.secondaryType.None?)
    ensures r.Ok? && r.value.secondaryType.Some? ==>
              r.value.secondaryType == play.result.value.secondaryType
    ensures r.Err? ==> r.error == KeyError || (r.error == IndexError && play.players == Some([]))
    ensures !Readable(play) ==> r == Err(KeyError)
    ensures Readable(play) && play.players == Some([]) ==> r == Err(IndexError)
  {
    var result :- Field(play.result);
    var eventId :- Field(result.eventCode);
    var description :- Field(result.description);
    var primary :- Field(result.event);
    var secondary := result.secondaryType;
    var about :- Field(play.about);
    var period :- Field(about.period);
    var timeRemaining :- Field(about.periodTimeRemaining);
    var slots :- ReadSlots(play.players);
    Ok(Event(game, eventId, description, primary, secondary, slots, period, timeRemaining))
  }

  /** The keys a play must have for its event to be built. */
  predicate Readable(play: Play) {
    && play.result.Some?
    && play.result.value.eventCode.Some?
    && play.result.value.description.Some?
    && play.result.value.event.Some?
    && play.about.Some?
    && play.about.value.period.Some?
    && play.about.value.periodTimeRemaining.Some?
  }

  function KeyOf(e: Event): EventKey {
    (e.game, e.eventId)
  }

  /** Every entry is stored under its own event's key. */
  predicate KeyedByIdentity(d: Dict<EventKey, Event>) {
    forall i | 0 <= i < |d| :: d[i].0 == KeyOf(d[i].1)
  }

  /** `events[(game, event_id)] = {...}` for every play of one feed, in order. */
  function PutPlays(d: Dict<EventKey, Event>, game: string, plays: seq<Play>): (r: Result<Dict<EventKey, Event>, Error>)
    ensures KeyedByIdentity(d) && Distinct(Keys(d)) && r.Ok? ==>
              KeyedByIdentity(r.value) && Distinct(Keys(r.value))
    decreases |plays|
  {
    if plays == [] then Ok(d)
    else
      var prior :- PutPlays(d, game, plays[..|plays| - 1]);
      var e :- NormalizePlay(game, plays[|plays| - 1]);
      var r := Put(prior, KeyOf(e), e);
      PutKeepsIdentity(prior, e);
      Ok(r)
  }

  lemma PutKeepsIdentity(d: Dict<EventKey, Event>, e: Event)
    ensures KeyedByIdentity(d) ==> KeyedByIdentity(Put(d, KeyOf(e), e))
  {
    var r := Put(d, KeyOf(e), e);
    forall i | 0 <= i < |r| && KeyedByIdentity(d)
      ensures r[i].0 == KeyOf(r[i].1)
    {
      if KeyOf(e) !in Keys(d) {
        assert r == d + [(KeyOf(e), e)];
      } else {
        assert Keys(r) == Keys(d);
      }
    }
  }

  /** The events of one game: fetch its feed, read `liveData.plays.allPlays`. */
  function GameEvents(svc: Service, game: string, d: Dict<EventKey, Event>): (r: Result<Dict<EventKey, Event>, Error>)
    ensures KeyedByIdentity(d) && Distinct(Keys(d)) && r.Ok? ==>
              KeyedByIdentity(r.value) && Distinct(Keys(r.value))
  {
    var feed :- FetchFeed(svc, game);
    var plays :- Field(feed.allPlays);
    PutPlays(d, game, plays)
  }

  /**
    `get_events(game_ids)`: one feed request per game, in order, stopping at
    the first exception. The dict never holds two records for one key, and
    each record sits under its own (game, event code).
   */
  function GetEvents(svc: Service, games: seq<string>): (r: Fetched<Dict<EventKey, Event>>)
    ensures r.requests <= FeedRequests(games)
    ensures r.result.Ok? ==> r.requests == FeedRequests(games)
    ensures r.result.Ok? ==> KeyedByIdentity(r.result.value) && Distinct(Keys(r.result.value))
    decreases |games|
  {
    if games == [] then Fetched([], Ok([]))
    else
      var prior := GetEvents(svc, games[..|games| - 1]);
      if prior.result.Err? then
        assert FeedRequests(games[..|games| - 1]) <= FeedRequests(games);
        prior
      else
        var game := games[|games| - 1];
        Fetched(prior.requests + [FeedRequest(game)], GameEvents(svc, game, prior.result.value))
  }

  function FeedRequests(games: seq<string>): (qs: seq<Request>)
    ensures |qs| == |games|
    ensures forall i | 0 <= i < |games| :: qs[i] == FeedRequest(games[i])
  {
    if games == [] then [] else FeedRequests(games[..|games| - 1]) + [FeedRequest(games[|games| - 1])]
  }

  // ---- reference: all events of all feeds, in order ----

  /** The events of every play of every game, in feed order, before keying. */
  function AllEvents(svc: Service, games: seq<string>): Fetched<seq<Event>>
    decreases |games|
  {
    if games == [] then Fetched([], Ok([]))
    else
      var prior := AllEvents(svc, games[..|games| - 1]);
      if prior.result.Err? then prior
      else
        var game := games[|games| - 1];
        Fetched(prior.requests + [FeedRequest(game)],
          var feed :- FetchFeed(svc, game);
          var plays :- Field(feed.allPlays);
          var es :- MapAll(plays, p => NormalizePlay(game, p));
          Ok(prior.result.value + es))
  }

  /** The play loop fails exactly when some play does, and otherwise assigns the events in order. */
  predicate PlaysArePutAll(d: Dict<EventKey, Event>, game: string, plays: seq<Play>) {
    && (PutPlays(d, game, plays).Ok? <==> MapAll(plays, p => NormalizePlay(game, p)).Ok?)
    && (PutPlays(d, game, plays).Ok? ==>
          PutPlays(d, game, plays).value == PutAll(d, KeyBy(MapAll(plays, p => NormalizePlay(game, p)).value, KeyOf)))
  }

  lemma {:induction false} PutPlaysIsPutAll(d: Dict<EventKey, Event>, game: string, plays: seq<Play>)
    ensures PutPlays(d, game, plays).Ok? <==> MapAll(plays, p => NormalizePlay(game, p)).Ok?
    ensures PutPlays(d, game, plays).Ok? ==>
              PutPlays(d, game, plays).value == PutAll(d, KeyBy(MapAll(plays, p => NormalizePlay(game, p)).value, KeyOf))
    decreases |plays|
  {
    if plays != [] {
      PutPlaysIsPutAll(d, game, plays[..|plays| - 1]);
      PutPlaysStep(d, game, plays);
    }
    assert PlaysArePutAll(d, game, plays);
  }

  /** One more play: one more assignment, or the play's error. */
  lemma PutPlaysStep(d: Dict<EventKey, Event>, game: string, plays: seq<Play>)
    requires plays != [] && PlaysArePutAll(d, game, plays[..|plays| - 1])
    ensures PlaysArePutAll(d, game, plays)
  {
    var f := (p: Play) => NormalizePlay(game, p);
    var p := plays[..|plays| - 1];
    var x := plays[|plays| - 1];
    assert MapAll(plays, f).Ok? <==> MapAll(p, f).Ok? && f(x).Ok? by {
      assert p + [x] == plays;
      MapAllAppend(p, [x], f);
    }
    if MapAll(plays, f).Ok? {
      var prior := MapAll(p, f).value;
      var e := f(x).value;
      assert MapAll(plays, f).value == prior + [e] by {
        assert p + [x] == plays;
        MapAllAppend(p, [x], f);
      }
      PutAllKeyBySnoc(d, prior, e, KeyOf);
    }
  }

  /**
    `get_events` issues exactly the requests of the reference and fails or
    succeeds with it; when it succeeds its dict is the events assigned in
    feed order, so for every key it holds the LAST event with that key.
   */
  lemma {:induction false} GetEventsLastWins(svc: Service, games: seq<string>)
    ensures GetEvents(svc, games).requests == AllEvents(svc, games).requests
    ensures GetEvents(svc, games).result.Ok? <==> AllEvents(svc, games).result.Ok?
    ensures GetEvents(svc, games).result.Ok? ==>
              GetEvents(svc, games).result.value == FromPairs(KeyBy(AllEvents(svc, games).result.value, KeyOf))
    ensures GetEvents(svc, games).result.Ok? ==>
              forall k :: Get(GetEvents(svc, games).result.value, k)
                          == LastValue(KeyBy(AllEvents(svc, games).result.value, KeyOf), k)
    decreases |games|
  {
    if games != [] {
      var p := games[..|games| - 1];
      GetEventsLastWins(svc, p);
      var prior := GetEvents(svc, p);
      if prior.result.Ok? {
        var game := games[|games| - 1];
        var f := (q: Play) => NormalizePlay(game, q);
        var all := AllEvents(svc, p).result.value;
        if FetchFeed(svc, game).Ok? && FetchFeed(svc, game).value.allPlays.Some? {
          var plays := FetchFeed(svc, game).value.allPlays.value;
          PutPlaysIsPutAll(prior.result.value, game, plays);
          if MapAll(plays, f).Ok? {
            var es := MapAll(plays, f).value;
            KeyByAppend(all, es, KeyOf);
            PutAllAppend([], KeyBy(all, KeyOf), KeyBy(es, KeyOf));
          }
        }
      }
    }
    if GetEvents(svc, games).result.Ok? {
      FromPairsLastWins(KeyBy(AllEvents(svc, games).result.value, KeyOf));
    }
  }
}

=== FILE: ingest.dfy ===
/**
  One run of insert_data.py. At import time the script reads the watermark
  file (the date of the last run), and overwrites it with tomorrow's date
  before anything else happens. Then, inside a single try block, it reads the
  database configuration, connects, and runs four stages: Divisions, Teams,
  Players, Events. Each stage fetches and normalizes its records, then
  executes one INSERT per record. A single commit follows. Any exception is
  reported and the connection (if one was opened) is closed without
  committing. `insert_games` is defined but never called.

  The file system, the clock, the database and the upstream service are
  parameters: the watermark file is an optional string cell, `today` is an
  argument, the database is described by which of its steps succeed, and
  the upstream service is a `Service` value.
 */
module Ingest {
  import opened Wrappers
  import opened Seqs
  import opened Dicts
  import opened Calendar
  import Text
  import opened Records
  import opened Upstream
  import opened Rows
  import League
  import Players
  import Schedule
  import Events

  /** The observable steps of a run, in the order they happen. */
  datatype Action =
    | ReadWatermark(content: string)
    | WriteWatermark(content: string)
    | Fetch(request: Request)
    | Execute(statement: Statement)
    | CommitWork
    | CloseConnection
    | Report(error: Error)

  /**
    The database side: whether `config()` finds its settings, whether
    `psycopg2.connect` succeeds, which INSERTs the server refuses, and
    whether the commit goes through.
   */
  datatype Db = Db(hasConfig: bool, connects: bool, rejects: set<Statement>, commitSucceeds: bool)

  /** What outlives a run: the watermark file and the committed rows. */
  datatype World = World(watermark: Option<string>, committed: seq<Statement>)

  /**
    `Completed`: committed. `Aborted`: an exception caught by the script's
    handler, reported, nothing committed. `Crashed`: an exception at import
    time, which nothing catches.
   */
  datatype Outcome = Completed | Aborted(error: Error) | Crashed(error: Error)

  datatype RunResult = RunResult(world: World, trace: seq<Action>, outcome: Outcome)

  // ---- the stages ----

  /** One `insert_*` call: its target table, the requests its fetch issued, and its rows. */
  datatype Stage = Stage(table: Table, requests: seq<Request>, rows: Result<seq<Statement>, Error>)

  /** The rows of a dict, one per value, in the dict's order. */
  function RowsOf<K, V>(d: Dict<K, V>, row: V -> Statement): (sts: seq<Statement>)
    ensures |sts| == |d|
    ensures forall i | 0 <= i < |d| :: sts[i] == row(d[i].1)
  {
    seq(|d|, i requires 0 <= i < |d| => row(d[i].1))
  }

  /** The rows hold the dict's values, in the dict's order, and nothing else. */
  predicate Carries<K, V(==)>(sts: seq<Statement>, d: Dict<K, V>, decode: Statement -> Option<V>) {
    |sts| == |d| && forall i | 0 <= i < |d| :: decode(sts[i]) == Some(d[i].1)
  }

  predicate Tabled(s: Stage) {
    s.rows.Ok? ==> forall i | 0 <= i < |s.rows.value| :: s.rows.value[i].table == s.table
  }

  /** Every schedule request carries the given window. */
  predicate Windowed(qs: seq<Request>, start: string, end: string) {
    forall i | 0 <= i < |qs| :: qs[i].ScheduleRequest? ==> qs[i].startDate == start && qs[i].endDate == end
  }

  lemma PrefixWindowed(qs: seq<Request>, all: seq<Request>, start: string, end: string)
    requires qs <= all && Windowed(all, start, end)
    ensures Windowed(qs, start, end)
  {
    assert forall i | 0 <= i < |qs| :: qs[i] == all[i];
  }

  lemma FeedsUnwindowed(qs: seq<Request>, games: seq<string>, start: string, end: string)
    requires qs <= Events.FeedRequests(games)
    ensures Windowed(qs, start, end)
  {
    assert forall i | 0 <= i < |qs| :: qs[i] == Events.FeedRequests(games)[i];
  }

  lemma RostersUnwindowed(qs: seq<Request>, teams: seq<int>, start: string, end: string)
    requires qs <= Players.RosterRequests(teams)
    ensures Windowed(qs, start, end)
  {
    assert forall i | 0 <= i < |qs| :: qs[i] == Players.RosterRequests(teams)[i];
  }

  /** `insert_divisions`: the rows of `get_divisions()`, in the dict's order. */
  function DivisionsStage(svc: Service): (s: Stage)
    ensures s.table == DivisionsTable && Tabled(s)
    ensures s.requests == [DivisionsRequest]
    ensures s.rows.Ok? <==> League.GetDivisions(svc).result.Ok?
    ensures s.rows.Ok? ==> Carries(s.rows.value, League.GetDivisions(svc).result.value, DecodeDivision)
  {
    var f := League.GetDivisions(svc);
    Stage(DivisionsTable, f.requests,
          if f.result.Err? then Err(f.result.error) else Ok(RowsOf(f.result.value, DivisionRow)))
  }

  /** `insert_teams`: the rows of `get_teams()`. */
  function TeamsStage(svc: Service): (s: Stage)
    ensures s.table == TeamsTable && Tabled(s)
    ensures s.requests == [TeamsRequest]
    ensures s.rows.Ok? <==> League.GetTeams(svc).result.Ok?
    ensures s.rows.Ok? ==> Carries(s.rows.value, League.GetTeams(svc).result.value, DecodeTeam)
  {
    var f := League.GetTeams(svc);
    Stage(TeamsTable, f.requests,
          if f.result.Err? then Err(f.result.error) else Ok(RowsOf(f.result.value, TeamRow)))
  }

  /** The records each composite stage asks for, without the requests. */
  function PlayersFetched(svc: Service): Result<Dict<int, Player>, Error> {
    var ids :- League.GetTeamIds(svc).result;
    Players.GetPlayers(svc, ids).result
  }

  function EventsFetched(svc: Service, start: string, end: string): Result<Dict<Events.EventKey, Event>, Error> {
    var ids :- League.GetTeamIds(svc).result;
    var games :- Schedule.GetGameIds(svc, ids, start, end).result;
    Events.GetEvents(svc, games).result
  }

  function GamesFetched(svc: Service, start: string, end: string): Result<Dict<string, Game>, Error> {
    var ids :- League.GetTeamIds(svc).result;
    Schedule.GetGames(svc, ids, start, end).result
  }

  /** `insert_players`: the rows of `get_players(get_team_ids())`. */
  function PlayersStage(svc: Service): (s: Stage)
    ensures s.table == PlayersTable && Tabled(s)
    ensures |s.requests| >= 1 && s.requests[0] == TeamsRequest
    ensures forall start, end :: Windowed(s.requests, start, end)
    ensures League.GetTeamIds(svc).result.Err? ==> s.requests == League.GetTeamIds(svc).requests
    ensures League.GetTeamIds(svc).result.Ok? ==>
              s.requests == League.GetTeamIds(svc).requests
                            + Players.GetPlayers(svc, League.GetTeamIds(svc).result.value).requests
    ensures s.rows.Ok? <==> PlayersFetched(svc).Ok?
    ensures s.rows.Ok? ==> Carries(s.rows.value, PlayersFetched(svc).value, DecodePlayer)
  {
    var ids := League.GetTeamIds(svc);
    if ids.result.Err? then Stage(PlayersTable, ids.requests, Err(ids.result.error))
    else
      var f := Players.GetPlayers(svc, ids.result.value);
      PlayersStageUnwindowed(ids.requests, f.requests, ids.result.value);
      Stage(PlayersTable, ids.requests + f.requests,
            if f.result.Err? then Err(f.result.error) else Ok(RowsOf(f.result.value, PlayerRow)))
  }

  lemma PlayersStageUnwindowed(head: seq<Request>, qs: seq<Request>, teams: seq<int>)
    requires head == [TeamsRequest] && qs <= Players.RosterRequests(teams)
    ensures forall start, end :: Windowed(head + qs, start, end)
  {
    forall start, end ensures Windowed(head + qs, start, end) {
      RostersUnwindowed(qs, teams, start, end);
    }
  }

  /**
    The requests of `get_events(get_game_ids(get_team_ids(), start, end))`:
    the team list, then the schedules, then the feeds, each part cut at the
    first exception.
   */
  predicate EventsRequests(svc: Service, start: string, end: string, qs: seq<Request>) {
    var ids := League.GetTeamIds(svc);
    if ids.result.Err? then qs == ids.requests
    else
      var games := Schedule.GetGameIds(svc, ids.result.value, start, end);
      if games.result.Err? then qs == ids.requests + games.requests
      else qs == ids.requests + games.requests + Events.GetEvents(svc, games.result.value).requests
  }

  /** The requests of `get_games(get_team_ids(), start, end)`: the team list, then the schedules. */
  predicate GamesRequests(svc: Service, start: string, end: string, qs: seq<Request>) {
    var ids := League.GetTeamIds(svc);
    if ids.result.Err? then qs == ids.requests
    else qs == ids.requests + Schedule.GetGames(svc, ids.result.value, start, end).requests
  }

  /**
    `insert_events`: the rows of
    `get_events(get_game_ids(get_team_ids(), start, end))`; every schedule
    request it issues asks for the window `(start, end)`.
   */
  function EventsStage(svc: Service, start: string, end: string): (s: Stage)
    ensures s.table == EventsTable && Tabled(s)
    ensures |s.requests| >= 1 && s.requests[0] == TeamsRequest
    ensures Windowed(s.requests, start, end)
    ensures EventsRequests(svc, start, end, s.requests)
    ensures s.rows.Ok? <==> EventsFetched(svc, start, end).Ok?
    ensures s.rows.Ok? ==> Carries(s.rows.value, EventsFetched(svc, start, end).value, DecodeEvent)
  {
    var ids := League.GetTeamIds(svc);
    if ids.result.Err? then Stage(EventsTable, ids.requests, Err(ids.result.error))
    else
      var games := Schedule.GetGameIds(svc, ids.result.value, start, end);
      PrefixWindowed(games.requests, Schedule.ScheduleRequests(ids.result.value, start, end), start, end);
      if games.result.Err? then Stage(EventsTable, ids.requests + games.requests, Err(games.result.error))
      else
        var f := Events.GetEvents(svc, games.result.value);
        FeedsUnwindowed(f.requests, games.result.value, start, end);
        if f.result.Err? then Stage(EventsTable, ids.requests + games.requests + f.requests, Err(f.result.error))
        else
          EventRowsCarry(f.result.value);
          Stage(EventsTable, ids.requests + games.requests + f.requests, Ok(RowsOf(f.result.value, EventRow)))
  }

  /** Each event's row reads back as that event. */
  lemma EventRowsCarry<K>(d: Dict<K, Event>)
    ensures Carries(RowsOf(d, EventRow), d, DecodeEvent)
  {
    forall i | 0 <= i < |d|
      ensures DecodeEvent(RowsOf(d, EventRow)[i]) == Some(d[i].1)
    {
      EventRowDecodes(d[i].1);
    }
  }

  /**
    `insert_games`: the rows of `get_games(get_team_ids(), start, end)`.
    The script defines it but never runs it.
   */
  function GamesStage(svc: Service, start: string, end: string): (s: Stage)
    ensures s.table == GamesTable && Tabled(s)
    ensures |s.requests| >= 1 && s.requests[0] == TeamsRequest
    ensures Windowed(s.requests, start, end)
    ensures GamesRequests(svc, start, end, s.requests)
    ensures s.rows.Ok? <==> GamesFetched(svc, start, end).Ok?
    ensures s.rows.Ok? ==> Carries(s.rows.value, GamesFetched(svc, start, end).value, DecodeGame)
  {
    var ids := League.GetTeamIds(svc);
    if ids.result.Err? then Stage(GamesTable, ids.requests, Err(ids.result.error))
    else
      var f := Schedule.GetGames(svc, ids.result.value, start, end);
      PrefixWindowed(f.requests, Schedule.ScheduleRequests(ids.result.value, start, end), start, end);
      Stage(GamesTable, ids.requests + f.requests,
            if f.result.Err? then Err(f.result.error) else Ok(RowsOf(f.result.value, GameRow)))
  }

  /** The stages `__main__` runs, in its order. */
  function MainStages(svc: Service, start: string, end: string): (stages: seq<Stage>)
    ensures |stages| == 4
    ensures stages[0].table == DivisionsTable && stages[1].table == TeamsTable
    ensures stages[2].table == PlayersTable && stages[3].table == EventsTable
    ensures forall i | 0 <= i < 4 :: stages[i].table != GamesTable
  {
    [DivisionsStage(svc), TeamsStage(svc), PlayersStage(svc), EventsStage(svc, start, end)]
  }

  // ---- executing the stages ----

  function Fetches(qs: seq<Request>): (acts: seq<Action>)
    ensures |acts| == |qs|
    ensures forall i | 0 <= i < |qs| :: acts[i] == Fetch(qs[i])
  {
    seq(|qs|, i requires 0 <= i < |qs| => Fetch(qs[i]))
  }

  function Executes(sts: seq<Statement>): (acts: seq<Action>)
    ensures |acts| == |sts|
    ensures forall i | 0 <= i < |sts| :: acts[i] == Execute(sts[i])
  {
    seq(|sts|, i requires 0 <= i < |sts| => Execute(sts[i]))
  }

  /**
    `cur.execute` for each row in turn: the rows before the first refused
    one are executed, and the refusal raises `DatabaseError`.
   */
  function ExecuteAll(db: Db, sts: seq<Statement>): (r: (seq<Statement>, Option<Error>))
    ensures r.0 <= sts
    ensures forall i | 0 <= i < |r.0| :: r.0[i] !in db.rejects
    ensures r.1.None? <==> forall i | 0 <= i < |sts| :: sts[i] !in db.rejects
    ensures r.1.None? ==> r.0 == sts
    ensures r.1.Some? ==> r.1.value == DatabaseError && |r.0| < |sts| && sts[|r.0|] in db.rejects
  {
    if sts == [] then ([], None)
    else if sts[0] in db.rejects then ([], Some(DatabaseError))
    else
      var rest := ExecuteAll(db, sts[1..]);
      assert sts == [sts[0]] + sts[1..];
      ([sts[0]] + rest.0, rest.1)
  }

  /** What running some stages did: its steps, the rows it executed, and the exception that stopped it. */
  datatype StageRun = StageRun(actions: seq<Action>, executed: seq<Statement>, failure: Option<Error>)

  /**
    One `insert_*` call: its requests, then the inserts of its rows until the
    first refused one. A fetch error means nothing is executed.
   */
  function RunStage(db: Db, s: Stage): (r: StageRun)
    ensures |r.actions| == |s.requests| + |r.executed|
    ensures s.rows.Err? ==> r.executed == [] && r.failure == Some(s.rows.error)
    ensures s.rows.Ok? ==> |r.executed| <= |s.rows.value|
    ensures s.rows.Ok? && r.failure.Some? ==> r.failure == Some(DatabaseError)
  {
    if s.rows.Err? then StageRun(Fetches(s.requests), [], Some(s.rows.error))
    else
      var (done, failure) := ExecuteAll(db, s.rows.value);
      StageRun(Fetches(s.requests) + Executes(done), done, failure)
  }

  /** The stages in turn; the first exception ends the run of stages. */
  function RunStages(db: Db, stages: seq<Stage>): (r: StageRun)
    ensures |r.executed| <= |r.actions|
    ensures r.failure.Some? ==> stages != []
    decreases |stages|
  {
    if stages == [] then StageRun([], [], None)
    else
      var first := RunStage(db, stages[0]);
      if first.failure.Some? then first
      else
        var rest := RunStages(db, stages[1..]);
        StageRun(first.actions + rest.actions, first.executed + rest.executed, rest.failure)
  }

  /** Reference: every stage's steps, concatenated, as if no stage ever failed. */
  function AllActions(db: Db, stages: seq<Stage>): seq<Action>
    decreases |stages|
  {
    if stages == [] then [] else RunStage(db, stages[0]).actions + AllActions(db, stages[1..])
  }

  /**
    A failure of the stages is the failure of the FIRST stage that fails:
    every stage before it got through, and the steps recorded are those of
    the stages up to and including it. No later stage fetches or executes.
   */
  lemma {:induction false} StagesStopAtFirstFailure(db: Db, stages: seq<Stage>)
    ensures var r := RunStages(db, stages);
            r.failure.Some? ==>
              exists k | 0 <= k < |stages| ::
                && (forall j | 0 <= j < k :: RunStage(db, stages[j]).failure.None?)
                && r.failure == RunStage(db, stages[k]).failure
                && r.actions == AllActions(db, stages[..k + 1])
    decreases |stages|
  {
    var r := RunStages(db, stages);
    if r.failure.Some? {
      var first := RunStage(db, stages[0]);
      if first.failure.Some? {
        FirstStageFails(db, stages);
      } else {
        StagesStopAtFirstFailure(db, stages[1..]);
        var rest := RunStages(db, stages[1..]);
        var k' :| 0 <= k' < |stages[1..]|
                  && (forall j | 0 <= j < k' :: RunStage(db, stages[1..][j]).failure.None?)
                  && rest.failure == RunStage(db, stages[1..][k']).failure
                  && rest.actions == AllActions(db, stages[1..][..k' + 1]);
        LaterStageFails(db, stages, k');
      }
    }
  }

  lemma FirstStageFails(db: Db, stages: seq<Stage>)
    requires stages != [] && RunStage(db, stages[0]).failure.Some?
    ensures var r := RunStages(db, stages);
            && r.failure == RunStage(db, stages[0]).failure
            && r.actions == AllActions(db, stages[..1])
  {
    assert stages[..1][1..] == [];
  }

  /** The witness for the failing stage, moved one stage along. */
  lemma LaterStageFails(db: Db, stages: seq<Stage>, k': nat)
    requires stages != [] && RunStage(db, stages[0]).failure.None?
    requires k' < |stages| - 1
    requires forall j | 0 <= j < k' :: RunStage(db, stages[1..][j]).failure.None?
    requires RunStages(db, stages[1..]).failure == RunStage(db, stages[1..][k']).failure
    requires RunStages(db, stages[1..]).actions == AllActions(db, stages[1..][..k' + 1])
    ensures var r := RunStages(db, stages);
            var k := k' + 1;
            && (forall j | 0 <= j < k :: RunStage(db, stages[j]).failure.None?)
            && r.failure == RunStage(db, stages[k]).failure
            && r.actions == AllActions(db, stages[..k + 1])
  {
    var k := k' + 1;
    assert stages[..k + 1][0] == stages[0];
    assert stages[..k + 1][1..] == stages[1..][..k' + 1];
    forall j | 0 <= j < k ensures RunStage(db, stages[j]).failure.None? {
      if j > 0 {
        assert stages[j] == stages[1..][j - 1];
      }
    }
  }

  /** Reference: every stage's rows, concatenated in order, or the first stage's fetch error. */
  function AllRows(stages: seq<Stage>): Result<seq<Statement>, Error>
    decreases |stages|
  {
    if stages == [] then Ok([])
    else if stages[0].rows.Err? then Err(stages[0].rows.error)
    else
      var rest :- AllRows(stages[1..]);
      Ok(stages[0].rows.value + rest)
  }

  /** The rows an action sequence executed, in order. */
  function ExecutedIn(acts: seq<Action>): seq<Statement>
    decreases |acts|
  {
    if acts == [] then []
    else (if acts[0].Execute? then [acts[0].statement] else []) + ExecutedIn(acts[1..])
  }

  lemma {:induction false} ExecutedInAppend(a: seq<Action>, b: seq<Action>)
    ensures ExecutedIn(a + b) == ExecutedIn(a) + ExecutedIn(b)
    decreases |a|
  {
    if a != [] {
      assert (a + b)[0] == a[0];
      assert (a + b)[1..] == a[1..] + b;
      ExecutedInAppend(a[1..], b);
    } else {
      assert a + b == b;
    }
  }

  lemma {:induction false} ExecutedInFetches(qs: seq<Request>)
    ensures ExecutedIn(Fetches(qs)) == []
    decreases |qs|
  {
    if qs != [] {
      assert Fetches(qs)[1..] == Fetches(qs[1..]);
      ExecutedInFetches(qs[1..]);
    }
  }

  lemma {:induction false} ExecutedInExecutes(sts: seq<Statement>)
    ensures ExecutedIn(Executes(sts)) == sts
    decreases |sts|
  {
    if sts != [] {
      assert Executes(sts)[1..] == Executes(sts[1..]);
      ExecutedInExecutes(sts[1..]);
      assert sts == [sts[0]] + sts[1..];
    }
  }

  /**
    The stages all get through exactly when every stage fetched its rows and
    the server refuses none of them; then exactly those rows were executed,
    in order, and the run's steps record precisely them.
   */
  lemma {:induction false} StagesComplete(db: Db, stages: seq<Stage>)
    ensures var s := RunStages(db, stages);
            && ExecutedIn(s.actions) == s.executed
            && (s.failure.None? <==>
                  AllRows(stages).Ok? && forall i | 0 <= i < |AllRows(stages).value| :: AllRows(stages).value[i] !in db.rejects)
            && (s.failure.None? ==> s.executed == AllRows(stages).value)
    decreases |stages|
  {
    if stages != [] {
      var first := RunStage(db, stages[0]);
      StageSteps(db, stages[0]);
      if first.failure.None? {
        StagesComplete(db, stages[1..]);
        var rest := RunStages(db, stages[1..]);
        ExecutedInAppend(first.actions, rest.actions);
        var all := AllRows(stages);
        if rest.failure.None? {
          assert all.value == stages[0].rows.value + AllRows(stages[1..]).value;
        } else if AllRows(stages[1..]).Ok? {
          var tail := AllRows(stages[1..]).value;
          var k :| 0 <= k < |tail| && tail[k] in db.rejects;
          assert all.value[|stages[0].rows.value| + k] == tail[k];
        }
      } else if stages[0].rows.Ok? {
        var k := |first.executed|;
        assert stages[0].rows.value[k] in db.rejects;
        if AllRows(stages).Ok? {
          assert AllRows(stages).value[k] == stages[0].rows.value[k];
        }
      }
    }
  }

  lemma StageSteps(db: Db, s: Stage)
    ensures var r := RunStage(db, s);
            && ExecutedIn(r.actions) == r.executed
            && (r.failure.None? <==> s.rows.Ok? && forall i | 0 <= i < |s.rows.value| :: s.rows.value[i] !in db.rejects)
            && (r.failure.None? ==> r.executed == s.rows.value)
  {
    var r := RunStage(db, s);
    ExecutedInFetches(s.requests);
    if s.rows.Ok? {
      var done := ExecuteAll(db, s.rows.value).0;
      ExecutedInAppend(Fetches(s.requests), Executes(done));
      ExecutedInExecutes(done);
    }
  }

  // ---- order of the stages ----

  /** A table's position in the schema: Divisions, Teams, Players, Games, Events. */
  function Rank(t: Table): int {
    match t
    case DivisionsTable => 0
    case TeamsTable => 1
    case PlayersTable => 2
    case GamesTable => 3
    case EventsTable => 4
  }

  /** Only upstream requests and row inserts: what the stages themselves do. */
  predicate OnlyTalks(acts: seq<Action>) {
    forall i | 0 <= i < |acts| :: acts[i].Fetch? || acts[i].Execute?
  }

  /** Rows are executed table by table, never going back to an earlier table. */
  predicate ExecutesOrdered(acts: seq<Action>) {
    forall i, j | 0 <= i < j < |acts| && acts[i].Execute? && acts[j].Execute? ::
      Rank(acts[i].statement.table) <= Rank(acts[j].statement.table)
  }

  predicate ExecutesFrom(acts: seq<Action>, rank: int) {
    forall i | 0 <= i < |acts| && acts[i].Execute? :: rank <= Rank(acts[i].statement.table)
  }

  predicate ExecutesUpTo(acts: seq<Action>, rank: int) {
    forall i | 0 <= i < |acts| && acts[i].Execute? :: Rank(acts[i].statement.table) <= rank
  }

  predicate AvoidsTable(acts: seq<Action>, t: Table) {
    forall i | 0 <= i < |acts| && acts[i].Execute? :: acts[i].statement.table != t
  }

  /** Every schedule request fetched asks for the window `(start, end)`. */
  predicate FetchesWindowed(acts: seq<Action>, start: string, end: string) {
    forall i | 0 <= i < |acts| && acts[i].Fetch? && acts[i].request.ScheduleRequest? ::
      acts[i].request.startDate == start && acts[i].request.endDate == end
  }

  predicate LeavesFile(acts: seq<Action>) {
    forall i | 0 <= i < |acts| :: !acts[i].ReadWatermark? && !acts[i].WriteWatermark?
  }

  /** The step properties of a run survive concatenation when the tables of the two parts do not interleave. */
  lemma AppendSteps(a: seq<Action>, b: seq<Action>, start: string, end: string, avoid: Table, bound: int)
    requires FetchesWindowed(a, start, end) && FetchesWindowed(b, start, end)
    requires ExecutesOrdered(a) && ExecutesOrdered(b)
    requires AvoidsTable(a, avoid) && AvoidsTable(b, avoid)
    requires ExecutesUpTo(a, bound) && ExecutesFrom(b, bound)
    ensures FetchesWindowed(a + b, start, end) && ExecutesOrdered(a + b) && AvoidsTable(a + b, avoid)
    ensures LeavesFile(a) && LeavesFile(b) ==> LeavesFile(a + b)
    ensures OnlyTalks(a) && OnlyTalks(b) ==> OnlyTalks(a + b)
    ensures ExecutesFrom(a, bound) ==> ExecutesFrom(a + b, bound)
  {
    var ab := a + b;
    assert forall i | |a| <= i < |ab| :: ab[i] == b[i - |a|];
    assert forall i | 0 <= i < |a| :: ab[i] == a[i];
  }

  /** One stage's steps: its fetches, all within the window, then inserts into its own table only. */
  lemma StageStepsKinds(db: Db, s: Stage, start: string, end: string, avoid: Table)
    requires Tabled(s) && Windowed(s.requests, start, end) && s.table != avoid
    ensures var acts := RunStage(db, s).actions;
            && OnlyTalks(acts)
            && FetchesWindowed(acts, start, end)
            && ExecutesOrdered(acts)
            && AvoidsTable(acts, avoid)
            && ExecutesFrom(acts, Rank(s.table))
            && ExecutesUpTo(acts, Rank(s.table))
  {
    if s.rows.Ok? {
      var done := ExecuteAll(db, s.rows.value).0;
      assert forall i | 0 <= i < |done| :: done[i] == s.rows.value[i];
    }
  }

  /** Stages in strictly increasing schema order, each fetching within the window and none targeting `avoid`. */
  predicate StagesFit(stages: seq<Stage>, start: string, end: string, avoid: Table) {
    && (forall k | 0 <= k < |stages| ::
          Tabled(stages[k]) && Windowed(stages[k].requests, start, end) && stages[k].table != avoid)
    && (forall k | 0 <= k < |stages| - 1 :: Rank(stages[k].table) < Rank(stages[k + 1].table))
  }

  /** What running stages in order may do: fetch within the window and insert table by table, never into `avoid`. */
  predicate StagesSteps(acts: seq<Action>, start: string, end: string, avoid: Table) {
    OnlyTalks(acts) && FetchesWindowed(acts, start, end) && ExecutesOrdered(acts) && AvoidsTable(acts, avoid)
  }

  /**
    Running stages whose tables come in strictly increasing schema order
    executes rows in that order, into those tables only, and fetches only
    what the stages asked for.
   */
  lemma {:induction false} StagesInOrder(db: Db, stages: seq<Stage>, start: string, end: string, avoid: Table)
    requires StagesFit(stages, start, end, avoid)
    ensures StagesSteps(RunStages(db, stages).actions, start, end, avoid)
    ensures |stages| > 0 ==> ExecutesFrom(RunStages(db, stages).actions, Rank(stages[0].table))
    decreases |stages|
  {
    if stages != [] {
      var tail := stages[1..];
      assert StagesFit(tail, start, end, avoid) by {
        assert forall k | 0 <= k < |tail| :: tail[k] == stages[k + 1];
      }
      StagesInOrder(db, tail, start, end, avoid);
      StagesInOrderStep(db, stages, start, end, avoid);
    }
  }

  /** The first stage's steps, followed by those of the later stages, which start at a later table. */
  lemma StagesInOrderStep(db: Db, stages: seq<Stage>, start: string, end: string, avoid: Table)
    requires stages != [] && StagesFit(stages, start, end, avoid)
    requires StagesSteps(RunStages(db, stages[1..]).actions, start, end, avoid)
    requires |stages| > 1 ==> ExecutesFrom(RunStages(db, stages[1..]).actions, Rank(stages[1].table))
    ensures StagesSteps(RunStages(db, stages).actions, start, end, avoid)
    ensures ExecutesFrom(RunStages(db, stages).actions, Rank(stages[0].table))
  {
    var s := stages[0];
    var first := RunStage(db, s);
    StageStepsKinds(db, s, start, end, avoid);
    if first.failure.None? {
      var rest := RunStages(db, stages[1..]).actions;
      if |stages| == 1 {
        assert stages[1..] == [];
      }
      assert ExecutesFrom(rest, Rank(s.table));
      AppendSteps(first.actions, rest, start, end, avoid, Rank(s.table));
      assert RunStages(db, stages).actions == first.actions + rest;
    }
  }

  /** A stage for `table` whose rows all go to it and whose schedule requests carry the window. */
  predicate StageFits(s: Stage, table: Table, start: string, end: string) {
    s.table == table && Tabled(s) && Windowed(s.requests, start, end)
  }

  /** Four stages for Divisions, Teams, Players and Events, each within the window, fit in that order. */
  lemma FourStagesFit(d: Stage, t: Stage, p: Stage, e: Stage, start: string, end: string)
    requires StageFits(d, DivisionsTable, start, end) && StageFits(t, TeamsTable, start, end)
    requires StageFits(p, PlayersTable, start, end) && StageFits(e, EventsTable, start, end)
    ensures StagesFit([d, t, p, e], start, end, GamesTable)
  {
  }

  lemma DivisionsStageFits(svc: Service, start: string, end: string)
    ensures StageFits(DivisionsStage(svc), DivisionsTable, start, end)
  {
    assert Windowed([DivisionsRequest], start, end);
  }

  lemma TeamsStageFits(svc: Service, start: string, end: string)
    ensures StageFits(TeamsStage(svc), TeamsTable, start, end)
  {
    assert Windowed([TeamsRequest], start, end);
  }

  lemma MainStagesInOrder(svc: Service, start: string, end: string)
    ensures StagesFit(MainStages(svc, start, end), start, end, GamesTable)
  {
    DivisionsStageFits(svc, start, end);
    TeamsStageFits(svc, start, end);
    FourStagesFit(DivisionsStage(svc), TeamsStage(svc), PlayersStage(svc), EventsStage(svc, start, end), start, end);
  }

  // ---- the run ----

  /**
    The whole script. The watermark file is read (a missing file raises
    `FileNotFoundError`, uncaught) and immediately overwritten with
    tomorrow's date (computing it past 9999-12-31 raises `OverflowError`,
    also uncaught). The old contents and `str(tomorrow)` then bound the
    schedule window.
   */
  function Run(today: Date, w: World, svc: Service, db: Db): (r: RunResult)
    requires Valid(today)
    ensures r.outcome.Crashed? <==> w.watermark.None? || NextDay(today).Err?
    ensures r.outcome.Crashed? ==> r.world == w
    ensures !r.outcome.Crashed? ==> r.world.watermark == Some(FormatDate(NextDay(today).value))
    ensures w.watermark.Some? ==> |r.trace| > 0 && r.trace[0] == ReadWatermark(w.watermark.value)
  {
    if w.watermark.None? then RunResult(w, [], Crashed(FileNotFound))
    else
      var lastRun := w.watermark.value;
      var tomorrow := NextDay(today);
      if tomorrow.Err? then RunResult(w, [ReadWatermark(lastRun)], Crashed(tomorrow.error))
      else
        var stamp := FormatDate(tomorrow.value);
        Session(w.(watermark := Some(stamp)), [ReadWatermark(lastRun), WriteWatermark(stamp)], db,
                MainStages(svc, lastRun, FormatDate(tomorrow.value)))
  }

  /**
    The `__main__` block: everything in it is inside one `try`; the handler
    reports the error, and `finally` closes the connection if one was made.
    The watermark is not touched again, and nothing is committed unless the
    run completes.
   */
  function Session(w: World, head: seq<Action>, db: Db, stages: seq<Stage>): (r: RunResult)
    ensures r.world.watermark == w.watermark
    ensures |head| < |r.trace| && r.trace[..|head|] == head
    ensures !r.outcome.Crashed?
    ensures !r.outcome.Completed? ==> r.world.committed == w.committed
    ensures r.outcome.Completed? ==> db.commitSucceeds && RunStages(db, stages).failure.None?
    ensures !db.hasConfig ==> r.outcome == Aborted(ConfigMissing)
    ensures db.hasConfig && !db.connects ==> r.outcome == Aborted(ConnectFailed)
    ensures db.hasConfig && db.connects && RunStages(db, stages).failure.Some? ==>
              r.outcome == Aborted(RunStages(db, stages).failure.value)
    ensures db.hasConfig && db.connects && RunStages(db, stages).failure.None? && !db.commitSucceeds ==>
              r.outcome == Aborted(DatabaseError)
    ensures db.hasConfig && db.connects ==> |r.trace| >= |head| + 2 && r.trace[|r.trace| - 1] == CloseConnection
    ensures r.outcome.Aborted? ==>
              r.trace[|r.trace| - (if db.hasConfig && db.connects then 2 else 1)] == Report(r.outcome.error)
  {
    if !db.hasConfig then RunResult(w, head + [Report(ConfigMissing)], Aborted(ConfigMissing))
    else if !db.connects then RunResult(w, head + [Report(ConnectFailed)], Aborted(ConnectFailed))
    else
      var s := RunStages(db, stages);
      if s.failure.Some? then
        RunResult(w, head + s.actions + [Report(s.failure.value), CloseConnection], Aborted(s.failure.value))
      else if !db.commitSucceeds then
        RunResult(w, head + s.actions + [Report(DatabaseError), CloseConnection], Aborted(DatabaseError))
      else
        RunResult(w.(committed := w.committed + s.executed), head + s.actions + [CommitWork, CloseConnection], Completed)
  }

  /**
    A session stopped by a stage carries the error of the first stage that
    failed, and the stages after it never ran.
   */
  lemma SessionFirstFailure(w: World, head: seq<Action>, db: Db, stages: seq<Stage>)
    requires db.hasConfig && db.connects && RunStages(db, stages).failure.Some?
    ensures var r := Session(w, head, db, stages);
            exists k | 0 <= k < |stages| ::
              && (forall j | 0 <= j < k :: RunStage(db, stages[j]).failure.None?)
              && RunStage(db, stages[k]).failure.Some?
              && var e := RunStage(db, stages[k]).failure.value;
                 && r.outcome == Aborted(e)
                 && r.trace == head + AllActions(db, stages[..k + 1]) + [Report(e), CloseConnection]
  {
    StagesStopAtFirstFailure(db, stages);
    SessionShape(w, head, db, stages);
  }

  /** What follows the watermark steps in a session: the stages' steps, then the report or commit, then the close. */
  lemma SessionRest(w: World, head: seq<Action>, db: Db, stages: seq<Stage>, start: string, end: string, avoid: Table)
    requires StagesFit(stages, start, end, avoid)
    ensures var rest := Session(w, head, db, stages).trace[|head|..];
            && LeavesFile(rest)
            && FetchesWindowed(rest, start, end)
            && ExecutesOrdered(rest)
            && AvoidsTable(rest, avoid)
  {
    if db.hasConfig && db.connects {
      var s := RunStages(db, stages);
      SessionShape(w, head, db, stages);
      StagesInOrder(db, stages, start, end, avoid);
      StagesThenTail(head, s.actions, SessionTail(db, s), start, end, avoid);
    }
  }

  /** A session that connected: the given steps, the stages' steps, then the tail. */
  lemma SessionShape(w: World, head: seq<Action>, db: Db, stages: seq<Stage>)
    requires db.hasConfig && db.connects
    ensures Session(w, head, db, stages).trace == head + RunStages(db, stages).actions + SessionTail(db, RunStages(db, stages))
  {
  }

  /** The stages' steps followed by the report or commit and the close, after any prefix. */
  lemma StagesThenTail(head: seq<Action>, acts: seq<Action>, tail: seq<Action>, start: string, end: string, avoid: Table)
    requires StagesSteps(acts, start, end, avoid)
    requires |tail| == 2 && (tail[0].Report? || tail[0] == CommitWork) && tail[1] == CloseConnection
    ensures var rest := (head + acts + tail)[|head|..];
            && LeavesFile(rest)
            && FetchesWindowed(rest, start, end)
            && ExecutesOrdered(rest)
            && AvoidsTable(rest, avoid)
  {
    assert (head + acts + tail)[|head|..] == acts + tail;
    QuietTail(tail, start, end, avoid);
    assert LeavesFile(acts);
    AppendSteps(acts, tail, start, end, avoid, 4);
  }

  /** The steps after the stages: a report or the commit, then the close. */
  lemma QuietTail(tail: seq<Action>, start: string, end: string, avoid: Table)
    requires |tail| == 2 && (tail[0].Report? || tail[0] == CommitWork) && tail[1] == CloseConnection
    ensures LeavesFile(tail) && FetchesWindowed(tail, start, end) && ExecutesOrdered(tail)
    ensures AvoidsTable(tail, avoid) && ExecutesFrom(tail, 4)
  {
  }

  /** The file is read at step 0 and written, with `after`, at step 1; every fetch and insert comes later. */
  predicate WatermarkFirst(t: seq<Action>, after: string) {
    && (forall i | 0 <= i < |t| :: t[i].ReadWatermark? ==> i == 0)
    && (forall i | 0 <= i < |t| :: t[i].WriteWatermark? ==> i == 1 && t[i].content == after)
    && (forall i | 0 <= i < |t| :: t[i].Fetch? || t[i].Execute? ==> 1 < i && t[1].WriteWatermark?)
  }

  /** Putting the two watermark steps in front of steps that leave the file alone. */
  lemma WatermarkThenRest(before: string, after: string, rest: seq<Action>, start: string, end: string, avoid: Table)
    requires LeavesFile(rest) && FetchesWindowed(rest, start, end) && ExecutesOrdered(rest) && AvoidsTable(rest, avoid)
    ensures var t := [ReadWatermark(before), WriteWatermark(after)] + rest;
            && FetchesWindowed(t, start, end) && ExecutesOrdered(t) && AvoidsTable(t, avoid)
            && WatermarkFirst(t, after)
  {
    var head := [ReadWatermark(before), WriteWatermark(after)];
    var t := head + rest;
    assert forall i | 2 <= i < |t| :: t[i] == rest[i - 2];
    assert ExecutesFrom(rest, 0);
    AppendSteps(head, rest, start, end, avoid, 0);
  }

  /** A session after the two watermark steps, as a whole. */
  lemma SessionSteps(w: World, before: string, after: string, db: Db, stages: seq<Stage>, start: string, end: string, avoid: Table)
    requires StagesFit(stages, start, end, avoid)
    ensures var t := Session(w, [ReadWatermark(before), WriteWatermark(after)], db, stages).trace;
            && FetchesWindowed(t, start, end) && ExecutesOrdered(t) && AvoidsTable(t, avoid)
            && WatermarkFirst(t, after)
  {
    var head := [ReadWatermark(before), WriteWatermark(after)];
    var t := Session(w, head, db, stages).trace;
    SessionRest(w, head, db, stages, start, end, avoid);
    WatermarkThenRest(before, after, t[2..], start, end, avoid);
    assert t == head + t[2..];
  }

  /** The steps after the stages, by the way the stages ended. */
  function SessionTail(db: Db, s: StageRun): seq<Action> {
    if s.failure.Some? then [Report(s.failure.value), CloseConnection]
    else if !db.commitSucceeds then [Report(DatabaseError), CloseConnection]
    else [CommitWork, CloseConnection]
  }

  lemma SessionTailExecutesNothing(db: Db, s: StageRun)
    ensures ExecutedIn(SessionTail(db, s)) == []
  {
    var tail := SessionTail(db, s);
    assert tail[1..][0] == tail[1] && tail[1..][1..] == [];
    assert ExecutedIn(tail[1..]) == [];
  }

  /** A completed session executed exactly the stages' rows, and committed them. */
  lemma SessionCommits(w: World, head: seq<Action>, db: Db, stages: seq<Stage>)
    ensures var r := Session(w, head, db, stages);
            r.outcome.Completed? ==>
              && ExecutedIn(r.trace) == ExecutedIn(head) + RunStages(db, stages).executed
              && r.world.committed == w.committed + RunStages(db, stages).executed
  {
    var r := Session(w, head, db, stages);
    if db.hasConfig && db.connects {
      StagesComplete(db, stages);
      var s := RunStages(db, stages);
      var tail := SessionTail(db, s);
      assert r.trace == head + s.actions + tail;
      SessionTailExecutesNothing(db, s);
      ExecutedInAppend(head + s.actions, tail);
      ExecutedInAppend(head, s.actions);
    }
  }

  /** A session commits exactly when it completes, and closes exactly when it connected. */
  lemma SessionCloses(w: World, head: seq<Action>, db: Db, stages: seq<Stage>)
    requires OnlyTalks(RunStages(db, stages).actions)
    requires CommitWork !in head && CloseConnection !in head
    ensures var r := Session(w, head, db, stages);
            && (CommitWork in r.trace <==> r.outcome.Completed?)
            && (CloseConnection in r.trace <==> db.hasConfig && db.connects)
  {
    var r := Session(w, head, db, stages);
    if db.hasConfig && db.connects {
      var s := RunStages(db, stages);
      assert CommitWork !in s.actions && CloseConnection !in s.actions by {
        assert forall i | 0 <= i < |s.actions| :: s.actions[i].Fetch? || s.actions[i].Execute?;
      }
      assert r.trace == head + s.actions + SessionTail(db, s);
    }
  }

  lemma WatermarkStepsExecuteNothing(before: string, after: string)
    ensures ExecutedIn([ReadWatermark(before), WriteWatermark(after)]) == []
  {
    var head := [ReadWatermark(before), WriteWatermark(after)];
    assert head[1..] == [WriteWatermark(after)] && head[1..][1..] == [];
    assert ExecutedIn(head[1..]) == [];
  }

  const LastDay := Date(MaxYear, 12, 31)

  /**
    The watermark after a run is tomorrow's date, whatever the run's outcome:
    it is written before anything can fail. Only the two import-time errors
    leave the file as it was.
   */
  lemma WatermarkAdvances(today: Date, w: World, svc: Service, db: Db)
    requires Valid(today)
    ensures var r := Run(today, w, svc, db);
            && (w.watermark.None? ==> r == RunResult(w, [], Crashed(FileNotFound)))
            && (w.watermark.Some? && today == LastDay ==> r.world == w && r.outcome == Crashed(OverflowError))
            && (w.watermark.Some? && today != LastDay ==>
                  && r.world.watermark.Some?
                  && ParseDate(r.world.watermark.value).Some?
                  && Valid(ParseDate(r.world.watermark.value).value)
                  && DayNumber(ParseDate(r.world.watermark.value).value) == DayNumber(today) + 1)
  {
    if w.watermark.Some? && today != LastDay {
      FormatDateRoundTrip(NextDay(today).value);
    }
  }

  /** The new watermark depends on today's date only: not on the old contents, the upstream or the database. */
  lemma WatermarkDependsOnTodayOnly(today: Date, w1: World, w2: World, svc1: Service, svc2: Service, db1: Db, db2: Db)
    requires Valid(today) && today != LastDay && w1.watermark.Some? && w2.watermark.Some?
    ensures Run(today, w1, svc1, db1).world.watermark == Run(today, w2, svc2, db2).world.watermark
  {
  }

  /** After the two watermark steps, a run does what its session does. */
  lemma RunAfterWatermark(today: Date, w: World, svc: Service, db: Db)
    requires Valid(today) && w.watermark.Some? && today != LastDay
    ensures var r := Run(today, w, svc, db);
            var stamp := FormatDate(NextDay(today).value);
            && r.world.watermark == Some(stamp)
            && FetchesWindowed(r.trace, w.watermark.value, stamp)
            && ExecutesOrdered(r.trace)
            && AvoidsTable(r.trace, GamesTable)
            && WatermarkFirst(r.trace, stamp)
  {
    var before := w.watermark.value;
    var stamp := FormatDate(NextDay(today).value);
    var stages := MainStages(svc, before, stamp);
    MainStagesInOrder(svc, before, stamp);
    SessionSteps(w.(watermark := Some(stamp)), before, stamp, db, stages, before, stamp, GamesTable);
  }

  /**
    The file is read first and written second; nothing is fetched or
    executed before the write, and the file is not touched again, even when
    the run then fails.
   */
  lemma WatermarkWrittenFirst(today: Date, w: World, svc: Service, db: Db)
    requires Valid(today)
    ensures var r := Run(today, w, svc, db);
            && (forall i | 0 <= i < |r.trace| :: r.trace[i].ReadWatermark? ==> i == 0)
            && (forall i | 0 <= i < |r.trace| :: r.trace[i].WriteWatermark? ==>
                  i == 1 && Some(r.trace[i].content) == r.world.watermark)
            && (forall i | 0 <= i < |r.trace| :: r.trace[i].Fetch? || r.trace[i].Execute? ==>
                  1 < i && r.trace[1].WriteWatermark?)
  {
    if w.watermark.Some? && today != LastDay {
      RunAfterWatermark(today, w, svc, db);
    }
  }

  /**
    Every schedule request asks for games from the old watermark contents,
    verbatim, to the date the run just wrote.
   */
  lemma FetchWindow(today: Date, w: World, svc: Service, db: Db)
    requires Valid(today) && w.watermark.Some?
    ensures var r := Run(today, w, svc, db);
            r.world.watermark.Some? && FetchesWindowed(r.trace, w.watermark.value, r.world.watermark.value)
  {
    if today != LastDay {
      RunAfterWatermark(today, w, svc, db);
    }
  }

  /**
    `__main__` fills Divisions, then Teams, then Players, then Events, and
    never the Games table: `insert_games` is not called.
   */
  lemma TablesInScriptOrder(today: Date, w: World, svc: Service, db: Db)
    requires Valid(today)
    ensures var r := Run(today, w, svc, db);
            ExecutesOrdered(r.trace) && AvoidsTable(r.trace, GamesTable)
  {
    if w.watermark.Some? && today != LastDay {
      RunAfterWatermark(today, w, svc, db);
    }
  }

  /** A session after the watermark steps commits all or nothing, and closes exactly when it connected. */
  lemma SessionAllOrNothing(w: World, before: string, after: string, db: Db, stages: seq<Stage>, start: string, end: string)
    requires StagesFit(stages, start, end, GamesTable)
    ensures var r := Session(w, [ReadWatermark(before), WriteWatermark(after)], db, stages);
            && (!r.outcome.Completed? ==> r.world.committed == w.committed)
            && (r.outcome.Completed? ==> r.world.committed == w.committed + ExecutedIn(r.trace))
            && (CommitWork in r.trace <==> r.outcome.Completed?)
            && (CloseConnection in r.trace <==> db.hasConfig && db.connects)
  {
    var head := [ReadWatermark(before), WriteWatermark(after)];
    StagesInOrder(db, stages, start, end, GamesTable);
    SessionCommits(w, head, db, stages);
    SessionCloses(w, head, db, stages);
    WatermarkStepsExecuteNothing(before, after);
    var r := Session(w, head, db, stages);
    if r.outcome.Completed? {
      var executed := RunStages(db, stages).executed;
      assert [] + executed == executed;
      assert ExecutedIn(r.trace) == executed;
    }
  }

  /**
    The single commit: rows reach the database only when the whole run
    completes, and then exactly the rows the run executed are added. The
    connection is closed exactly when it was opened.
   */
  lemma CommitAllOrNothing(today: Date, w: World, svc: Service, db: Db)
    requires Valid(today)
    ensures var r := Run(today, w, svc, db);
            && (!r.outcome.Completed? ==> r.world.committed == w.committed)
            && (r.outcome.Completed? ==> r.world.committed == w.committed + ExecutedIn(r.trace))
            && (CommitWork in r.trace <==> r.outcome.Completed?)
            && (CloseConnection in r.trace <==>
                  w.watermark.Some? && today != LastDay && db.hasConfig && db.connects)
  {
    if w.watermark.Some? && today != LastDay {
      var before := w.watermark.value;
      var stamp := FormatDate(NextDay(today).value);
      MainStagesInOrder(svc, before, stamp);
      SessionAllOrNothing(w.(watermark := Some(stamp)), before, stamp, db, MainStages(svc, before, stamp), before, stamp);
    }
  }

  /** A session completes exactly when it connects, every stage fetches its rows, none is refused and the commit succeeds. */
  lemma SessionCompletes(w: World, head: seq<Action>, db: Db, stages: seq<Stage>)
    ensures var r := Session(w, head, db, stages);
            && (r.outcome.Completed? <==>
                  && db.hasConfig && db.connects
                  && AllRows(stages).Ok?
                  && (forall i | 0 <= i < |AllRows(stages).value| :: AllRows(stages).value[i] !in db.rejects)
                  && db.commitSucceeds)
            && (r.outcome.Completed? ==> r.world.committed == w.committed + AllRows(stages).value)
  {
    StagesComplete(db, stages);
  }

  /**
    Against the reference: a run completes exactly when the file is there,
    tomorrow exists, the database is reachable, every stage fetches its
    records, the server accepts every row and the commit succeeds; it then
    commits all four stages' rows in order.
   */
  lemma CompletesExactly(today: Date, w: World, svc: Service, db: Db)
    requires Valid(today)
    ensures var r := Run(today, w, svc, db);
            && (r.outcome.Completed? <==>
                  && w.watermark.Some? && today != LastDay && db.hasConfig && db.connects
                  && var rows := AllRows(MainStages(svc, w.watermark.value, FormatDate(NextDay(today).value)));
                  && rows.Ok?
                  && (forall i | 0 <= i < |rows.value| :: rows.value[i] !in db.rejects)
                  && db.commitSucceeds)
            && (r.outcome.Completed? ==>
                  r.world.committed
                  == w.committed + AllRows(MainStages(svc, w.watermark.value, FormatDate(NextDay(today).value))).value)
  {
    if w.watermark.Some? && today != LastDay {
      var before := w.watermark.value;
      var stamp := FormatDate(NextDay(today).value);
      SessionCompletes(w.(watermark := Some(stamp)), [ReadWatermark(before), WriteWatermark(stamp)], db,
                       MainStages(svc, before, stamp));
    }
  }

  /** The day after 2023-01-05, as the file holds it. */
  lemma ExampleTomorrow()
    ensures NextDay(Date(2023, 1, 5)) == Ok(Date(2023, 1, 6))
    ensures FormatDate(Date(2023, 1, 6)) == "2023-01-06"
  {
    assert Text.PadDigits(2023, 4) == "2023" && Text.PadDigits(1, 2) == "01" && Text.PadDigits(6, 2) == "06";
  }

  /** A run on 2023-01-05 writes "2023-01-06" and asks the schedule for games from the old contents up to that date. */
  lemma WindowExample(svc: Service, db: Db)
    ensures var r := Run(Date(2023, 1, 5), World(Some("2023-01-01"), []), svc, db);
            && r.world.watermark == Some("2023-01-06")
            && FetchesWindowed(r.trace, "2023-01-01", "2023-01-06")
  {
    ExampleTomorrow();
    RunAfterWatermark(Date(2023, 1, 5), World(Some("2023-01-01"), []), svc, db);
  }
}

=== FILE: league.dfy ===
/**
  `get_divisions`, `get_team_ids` and `get_teams` (get_funcs.py): one request
  each, projecting every listed entry; the two dict-building functions key by
  the entry's `id`, a later entry with the same id overwriting the earlier.
 */
module League {
  import opened Wrappers
  import opened Seqs
  import opened Dicts
  import opened Raw
  import opened Records
  import opened Upstream

  function NormalizeDivision(d: RawDivision): (r: Result<Division, Error>)
    ensures r.Ok? <==> d.id.Some? && d.name.Some?
    ensures r.Ok? ==> r.value == Division(d.id.value, d.name.value)
    ensures r.Err? ==> r.error == KeyError
  {
    var id :- Field(d.id);
    var name :- Field(d.name);
    Ok(Division(id, name))
  }

  function DivisionKey(d: Division): int {
    d.divisionKey
  }

  /**
    `get_divisions()`: one request; every listed division must carry an id
    and a name. The dict holds one record per division id, the LAST one
    listed with that id, in first-seen id order.
   */
  function GetDivisions(svc: Service): (r: Fetched<Dict<int, Division>>)
    ensures r.requests == [DivisionsRequest]
    ensures r.result.Ok? <==>
              && svc.divisions.Some?
              && svc.divisions.value.divisions.Some?
              && forall i | 0 <= i < |svc.divisions.value.divisions.value| ::
                   NormalizeDivision(svc.divisions.value.divisions.value[i]).Ok?
    ensures r.result.Ok? ==>
              var listed := MapAll(svc.divisions.value.divisions.value, NormalizeDivision).value;
              && Keys(r.result.value) == Dedup(Keys(KeyBy(listed, DivisionKey)))
              && forall k :: Get(r.result.value, k) == LastValue(KeyBy(listed, DivisionKey), k)
    ensures r.result.Ok? ==> forall i | 0 <= i < |r.result.value| :: r.result.value[i].0 == r.result.value[i].1.divisionKey
  {
    var listed := ListedDivisions(svc);
    if listed.Err? then Fetched([DivisionsRequest], Err(listed.error))
    else
      FromPairsLastWins(KeyBy(listed.value, DivisionKey));
      FromPairsKeyed(listed.value, DivisionKey);
      Fetched([DivisionsRequest], Ok(FromPairs(KeyBy(listed.value, DivisionKey))))
  }

  function ListedDivisions(svc: Service): Result<seq<Division>, Error> {
    var body :- FetchDivisions(svc);
    var divisions :- Field(body.divisions);
    MapAll(divisions, NormalizeDivision)
  }

  function NormalizeTeam(t: RawTeam): (r: Result<Team, Error>)
    ensures r.Ok? <==> t.id.Some? && t.name.Some? && t.abbreviation.Some? && t.divisionId.Some?
    ensures r.Ok? ==> r.value == Team(t.id.value, t.name.value, t.abbreviation.value, t.divisionId.value)
    ensures r.Err? ==> r.error == KeyError
  {
    var id :- Field(t.id);
    var name :- Field(t.name);
    var abbreviation :- Field(t.abbreviation);
    var division :- Field(t.divisionId);
    Ok(Team(id, name, abbreviation, division))
  }

  function TeamKey(t: Team): int {
    t.id
  }

  function TeamId(t: RawTeam): Result<int, Error> {
    Field(t.id)
  }

  /**
    `get_team_ids()`: the id of every listed team, in list order, repeats
    kept.
   */
  function GetTeamIds(svc: Service): (r: Fetched<seq<int>>)
    ensures r.requests == [TeamsRequest]
    ensures r.result.Ok? <==>
              && svc.teams.Some?
              && svc.teams.value.teams.Some?
              && forall i | 0 <= i < |svc.teams.value.teams.value| :: svc.teams.value.teams.value[i].id.Some?
    ensures r.result.Ok? ==>
              && |r.result.value| == |svc.teams.value.teams.value|
              && forall i | 0 <= i < |r.result.value| :: r.result.value[i] == svc.teams.value.teams.value[i].id.value
  {
    Fetched([TeamsRequest], ListedTeamIds(svc))
  }

  function ListedTeamIds(svc: Service): Result<seq<int>, Error> {
    var body :- FetchTeams(svc);
    var teams :- Field(body.teams);
    MapAll(teams, TeamId)
  }

  /**
    `get_teams()`: one request; every listed team must carry an id, a name,
    an abbreviation and a division id. The dict holds one record per team id,
    the LAST one listed with that id.
   */
  function GetTeams(svc: Service): (r: Fetched<Dict<int, Team>>)
    ensures r.requests == [TeamsRequest]
    ensures r.result.Ok? <==>
              && svc.teams.Some?
              && svc.teams.value.teams.Some?
              && forall i | 0 <= i < |svc.teams.value.teams.value| ::
                   NormalizeTeam(svc.teams.value.teams.value[i]).Ok?
    ensures r.result.Ok? ==>
              var listed := MapAll(svc.teams.value.teams.value, NormalizeTeam).value;
              && Keys(r.result.value) == Dedup(Keys(KeyBy(listed, TeamKey)))
              && forall k :: Get(r.result.value, k) == LastValue(KeyBy(listed, TeamKey), k)
    ensures r.result.Ok? ==> forall i | 0 <= i < |r.result.value| :: r.result.value[i].0 == r.result.value[i].1.id
  {
    var listed := ListedTeams(svc);
    if listed.Err? then Fetched([TeamsRequest], Err(listed.error))
    else
      FromPairsLastWins(KeyBy(listed.value, TeamKey));
      FromPairsKeyed(listed.value, TeamKey);
      Fetched([TeamsRequest], Ok(FromPairs(KeyBy(listed.value, TeamKey))))
  }

  function ListedTeams(svc: Service): Result<seq<Team>, Error> {
    var body :- FetchTeams(svc);
    var teams :- Field(body.teams);
    MapAll(teams, NormalizeTeam)
  }

  /** Every team `get_teams` keeps has its id among those `get_team_ids` lists, and vice versa. */
  lemma TeamIdsMatchTeams(svc: Service)
    requires GetTeams(svc).result.Ok?
    ensures GetTeamIds(svc).result.Ok?
    ensures forall i | 0 <= i < |GetTeamIds(svc).result.value| :: GetTeamIds(svc).result.value[i] in Keys(GetTeams(svc).result.value)
    ensures forall k | k in Keys(GetTeams(svc).result.value) :: k in GetTeamIds(svc).result.value
  {
    var teams := svc.teams.value.teams.value;
    var listed := MapAll(teams, NormalizeTeam).value;
    var ids := GetTeamIds(svc).result.value;
    assert Keys(KeyBy(listed, TeamKey)) == ids;
  }
}

=== FILE: players.dfy ===
/**
  `get_players` (get_funcs.py): one roster request per team id, every roster
  entry normalized into a `Player`, collected in a dict keyed by player id
  where a later entry for the same player overwrites the earlier one.
 */
module Players {
  import opened Wrappers
  import opened Seqs
  import opened Dicts
  import opened Text
  import opened Raw
  import opened Records
  import opened Upstream

  /**
    One roster entry of team `team`. A missing `jerseyNumber` is caught and
    becomes `None`; the names are tokens 0 and 1 of `fullName.split(' ')`,
    so a name without a space raises `IndexError`.
   */
  function NormalizePlayer(entry: RosterEntry, team: int): (r: Result<Player, Error>)
    ensures r.Ok? <==> entry.personId.Some? && entry.fullName.Some? && ' ' in entry.fullName.value
    ensures r.Ok? ==> && r.value.playerId == entry.personId.value
                      && r.value.number == entry.jerseyNumber
                      && r.value.team == team
    ensures r.Err? ==> r.error == KeyError || (r.error == IndexError && entry.fullName.Some? && ' ' !in entry.fullName.value)
    ensures r.Err? && r.error == IndexError ==> entry.personId.Some?
    ensures r.Err? && r.error == KeyError ==> entry.personId.None? || entry.fullName.None?
  {
    var id :- Field(entry.personId);
    var fullName :- Field(entry.fullName);
    var parts := Split(fullName, ' ');
    var last :- At(parts, 1);
    Ok(Player(id, parts[0], last, entry.jerseyNumber, team))
  }

  /**
    The first name is the text before the first space of the full name, the
    last name the WHOLE token after it (it runs up to the next space or the
    end); neither holds a space, and the two with a space between them begin
    the full name: any third token is dropped.
   */
  lemma NamesFromFullName(entry: RosterEntry, team: int)
    requires NormalizePlayer(entry, team).Ok?
    ensures var p := NormalizePlayer(entry, team).value;
            var full := entry.fullName.value;
            && ' ' !in p.firstName && ' ' !in p.lastName
            && p.firstName + " " + p.lastName <= full
            && p.firstName == full[..FirstIndex(full, ' ')]
            && var n := |p.firstName| + 1 + |p.lastName|; n == |full| || full[n] == ' '
  {
    var full := entry.fullName.value;
    SplitHead(full, ' ', FirstIndex(full, ' '));
  }

  /** A name without a space is an error, not a one-token player. */
  lemma SingleTokenNameFails(entry: RosterEntry, team: int)
    requires entry.personId.Some? && entry.fullName.Some? && ' ' !in entry.fullName.value
    ensures NormalizePlayer(entry, team) == Err(IndexError)
  {
    SplitNoSep(entry.fullName.value, ' ');
  }

  /** Every entry is stored under its own player's id. */
  predicate KeyedById(d: Dict<int, Player>) {
    forall i | 0 <= i < |d| :: d[i].0 == d[i].1.playerId
  }

  /** `players[person['person']['id']] = {...}` for every roster entry, in order. */
  function PutRoster(d: Dict<int, Player>, team: int, entries: seq<RosterEntry>): (r: Result<Dict<int, Player>, Error>)
    ensures KeyedById(d) && Distinct(Keys(d)) && r.Ok? ==> KeyedById(r.value) && Distinct(Keys(r.value))
    decreases |entries|
  {
    if entries == [] then Ok(d)
    else
      var prior :- PutRoster(d, team, entries[..|entries| - 1]);
      var p :- NormalizePlayer(entries[|entries| - 1], team);
      PutKeepsId(prior, p);
      Ok(Put(prior, p.playerId, p))
  }

  lemma PutKeepsId(d: Dict<int, Player>, p: Player)
    ensures KeyedById(d) ==> KeyedById(Put(d, p.playerId, p))
  {
    var r := Put(d, p.playerId, p);
    if p.playerId !in Keys(d) {
      assert r == d + [(p.playerId, p)];
    } else {
      assert Keys(r) == Keys(d);
    }
  }

  /** `roster_json['teams'][0]['roster']['roster']`. */
  function RosterOf(body: RosterBody): (r: Result<seq<RosterEntry>, Error>)
    ensures r.Ok? <==> body.teams.Some? && |body.teams.value| > 0 && body.teams.value[0].roster.Some?
    ensures r.Ok? ==> r.value == body.teams.value[0].roster.value
    ensures r.Err? ==> r.error == KeyError || (r.error == IndexError && body.teams == Some([]))
  {
    var teams :- Field(body.teams);
    var first :- At(teams, 0);
    Field(first.roster)
  }

  function TeamPlayers(svc: Service, team: int, d: Dict<int, Player>): (r: Result<Dict<int, Player>, Error>)
    ensures KeyedById(d) && Distinct(Keys(d)) && r.Ok? ==> KeyedById(r.value) && Distinct(Keys(r.value))
  {
    var body :- FetchRoster(svc, team);
    var entries :- RosterOf(body);
    PutRoster(d, team, entries)
  }

  /**
    `get_players(team_ids)`: one roster request per team, in order, stopping
    at the first exception. The dict holds one record per player id, stored
    under that id.
   */
  function GetPlayers(svc: Service, teams: seq<int>): (r: Fetched<Dict<int, Player>>)
    ensures r.requests <= RosterRequests(teams)
    ensures r.result.Ok? ==> r.requests == RosterRequests(teams)
    ensures r.result.Ok? ==> KeyedById(r.result.value) && Distinct(Keys(r.result.value))
    decreases |teams|
  {
    if teams == [] then Fetched([], Ok([]))
    else
      var prior := GetPlayers(svc, teams[..|teams| - 1]);
      if prior.result.Err? then
        assert RosterRequests(teams[..|teams| - 1]) <= RosterRequests(teams);
        prior
      else
        var team := teams[|teams| - 1];
        Fetched(prior.requests + [RosterRequest(team)], TeamPlayers(svc, team, prior.result.value))
  }

  function RosterRequests(teams: seq<int>): (qs: seq<Request>)
    ensures |qs| == |teams|
    ensures forall i | 0 <= i < |teams| :: qs[i] == RosterRequest(teams[i])
  {
    if teams == [] then [] else RosterRequests(teams[..|teams| - 1]) + [RosterRequest(teams[|teams| - 1])]
  }

  // ---- reference: all roster entries of all teams, in order ----

  function AllPlayers(svc: Service, teams: seq<int>): Fetched<seq<Player>>
    decreases |teams|
  {
    if teams == [] then Fetched([], Ok([]))
    else
      var prior := AllPlayers(svc, teams[..|teams| - 1]);
      if prior.result.Err? then prior
      else
        var team := teams[|teams| - 1];
        Fetched(prior.requests + [RosterRequest(team)],
          var body :- FetchRoster(svc, team);
          var entries :- RosterOf(body);
          var ps :- MapAll(entries, e => NormalizePlayer(e, team));
          Ok(prior.result.value + ps))
  }

  function PlayerKey(p: Player): int {
    p.playerId
  }

  /** The roster loop fails exactly when some entry does, and otherwise assigns the players in order. */
  predicate RosterIsPutAll(d: Dict<int, Player>, team: int, entries: seq<RosterEntry>) {
    && (PutRoster(d, team, entries).Ok? <==> MapAll(entries, e => NormalizePlayer(e, team)).Ok?)
    && (PutRoster(d, team, entries).Ok? ==>
          PutRoster(d, team, entries).value == PutAll(d, KeyBy(MapAll(entries, e => NormalizePlayer(e, team)).value, PlayerKey)))
  }

  lemma {:induction false} PutRosterIsPutAll(d: Dict<int, Player>, team: int, entries: seq<RosterEntry>)
    ensures PutRoster(d, team, entries).Ok? <==> MapAll(entries, e => NormalizePlayer(e, team)).Ok?
    ensures PutRoster(d, team, entries).Ok? ==>
              PutRoster(d, team, entries).value == PutAll(d, KeyBy(MapAll(entries, e => NormalizePlayer(e, team)).value, PlayerKey))
    decreases |entries|
  {
    if entries != [] {
      PutRosterIsPutAll(d, team, entries[..|entries| - 1]);
      PutRosterStep(d, team, entries);
    }
    assert RosterIsPutAll(d, team, entries);
  }

  /** One more roster entry: one more assignment, or the entry's error. */
  lemma PutRosterStep(d: Dict<int, Player>, team: int, entries: seq<RosterEntry>)
    requires entries != [] && RosterIsPutAll(d, team, entries[..|entries| - 1])
    ensures RosterIsPutAll(d, team, entries)
  {
    var f := (e: RosterEntry) => NormalizePlayer(e, team);
    var p := entries[..|entries| - 1];
    var x := entries[|entries| - 1];
    assert MapAll(entries, f).Ok? <==> MapAll(p, f).Ok? && f(x).Ok? by {
      assert p + [x] == entries;
      MapAllAppend(p, [x], f);
    }
    if MapAll(entries, f).Ok? {
      var prior := MapAll(p, f).value;
      var y := f(x).value;
      assert MapAll(entries, f).value == prior + [y] by {
        assert p + [x] == entries;
        MapAllAppend(p, [x], f);
      }
      PutAllKeyBySnoc(d, prior, y, PlayerKey);
    }
  }

  /**
    `get_players` issues exactly the reference's requests and succeeds with
    it; its dict then holds, for every player id, the LAST roster entry with
    that id (a player listed by two teams ends up with the later team).
   */
  lemma {:induction false} GetPlayersLastWins(svc: Service, teams: seq<int>)
    ensures GetPlayers(svc, teams).requests == AllPlayers(svc, teams).requests
    ensures GetPlayers(svc, teams).result.Ok? <==> AllPlayers(svc, teams).result.Ok?
    ensures GetPlayers(svc, teams).result.Ok? ==>
              GetPlayers(svc, teams).result.value == FromPairs(KeyBy(AllPlayers(svc, teams).result.value, PlayerKey))
    ensures GetPlayers(svc, teams).result.Ok? ==>
              forall k :: Get(GetPlayers(svc, teams).result.value, k)
                          == LastValue(KeyBy(AllPlayers(svc, teams).result.value, PlayerKey), k)
    decreases |teams|
  {
    if teams != [] {
      var p := teams[..|teams| - 1];
      GetPlayersLastWins(svc, p);
      var prior := GetPlayers(svc, p);
      if prior.result.Ok? {
        var team := teams[|teams| - 1];
        var f := (e: RosterEntry) => NormalizePlayer(e, team);
        var all := AllPlayers(svc, p).result.value;
        if FetchRoster(svc, team).Ok? && RosterOf(FetchRoster(svc, team).value).Ok? {
          var entries := RosterOf(FetchRoster(svc, team).value).value;
          PutRosterIsPutAll(prior.result.value, team, entries);
          if MapAll(entries, f).Ok? {
            var ps := MapAll(entries, f).value;
            KeyByAppend(all, ps, PlayerKey);
            PutAllAppend([], KeyBy(all, PlayerKey), KeyBy(ps, PlayerKey));
          }
        }
      }
    }
    if GetPlayers(svc, teams).result.Ok? {
      FromPairsLastWins(KeyBy(AllPlayers(svc, teams).result.value, PlayerKey));
    }
  }
}

=== FILE: raw.dfy ===
/**
  The upstream league API's JSON bodies, reduced to the fields the normalizer
  subscripts. Every subscripted key is an `Option`: `None` is a body that
  lacks the key, and subscripting it raises `KeyError`. A chain of keys such
  as `team['division']['id']` is one field, absent when any link is.
 */
module Raw {
  import opened Wrappers

  // GET /divisions
  datatype RawDivision = RawDivision(id: Option<int>, name: Option<string>)
  datatype DivisionsBody = DivisionsBody(divisions: Option<seq<RawDivision>>)

  // GET /teams; `divisionId` is team['division']['id']
  datatype RawTeam = RawTeam(
    id: Option<int>,
    name: Option<string>,
    abbreviation: Option<string>,
    divisionId: Option<int>)
  datatype TeamsBody = TeamsBody(teams: Option<seq<RawTeam>>)

  // GET /teams/{id}?expand=team.roster; `personId` and `fullName` sit under
  // person['person'], `roster` is teams[0]['roster']['roster']
  datatype RosterEntry = RosterEntry(
    personId: Option<int>,
    fullName: Option<string>,
    jerseyNumber: Option<string>)
  datatype RosterTeam = RosterTeam(roster: Option<seq<RosterEntry>>)
  datatype RosterBody = RosterBody(teams: Option<seq<RosterTeam>>)

  // GET /schedule?teamId=..&startDate=..&endDate=..; the team fields sit under
  // game['teams']['home' | 'away']
  datatype ScheduledGame = ScheduledGame(
    gamePk: Option<int>,
    homeTeamId: Option<int>,
    awayTeamId: Option<int>,
    homeScore: Option<int>,
    awayScore: Option<int>,
    gameDate: Option<string>)
  datatype ScheduleDate = ScheduleDate(games: Option<seq<ScheduledGame>>)
  datatype ScheduleBody = ScheduleBody(dates: Option<seq<ScheduleDate>>)

  // GET /game/{id}/feed/live; `allPlays` is ['liveData']['plays']['allPlays'],
  // a participant's `playerId` is ['player']['id']
  datatype PlayResult = PlayResult(
    eventCode: Option<string>,
    description: Option<string>,
    event: Option<string>,
    secondaryType: Option<string>)
  datatype PlayAbout = PlayAbout(period: Option<int>, periodTimeRemaining: Option<string>)
  datatype Participant = Participant(playerId: Option<int>, playerType: Option<string>)
  datatype Play = Play(
    result: Option<PlayResult>,
    about: Option<PlayAbout>,
    players: Option<seq<Participant>>)
  datatype FeedBody = FeedBody(allPlays: Option<seq<Play>>)

  /** `opt[key]`: the value, or `KeyError` when the key is missing. */
  function Field<T>(opt: Option<T>): (r: Result<T, Error>)
    ensures r.Ok? <==> opt.Some?
    ensures r.Ok? ==> r.value == opt.value
    ensures r.Err? ==> r.error == KeyError
  {
    match opt
    case Some(v) => Ok(v)
    case None => Err(KeyError)
  }

  /** `xs[i]`: the element, or `IndexError` past the end. */
  function At<T>(xs: seq<T>, i: nat): (r: Result<T, Error>)
    ensures r.Ok? <==> i < |xs|
    ensures r.Ok? ==> r.value == xs[i]
    ensures r.Err? ==> r.error == IndexError
  {
    if i < |xs| then Ok(xs[i]) else Err(IndexError)
  }
}

=== FILE: records.dfy ===
/**
  The flat, fixed-shape records the normalizer produces: one per row of the
  Divisions, Teams, Players, Games and Events tables.
 */
module Records {
  import opened Wrappers

  datatype Division = Division(divisionKey: int, name: string)

  datatype Team = Team(id: int, name: string, abbreviation: string, division: int)

  /** `number` is `None` when the roster entry has no jersey number. */
  datatype Player = Player(
    playerId: int,
    firstName: string,
    lastName: string,
    number: Option<string>,
    team: int)

  /** `gameId` is the decimal text of the upstream `gamePk`. */
  datatype Game = Game(
    gameId: string,
    homeTeam: int,
    awayTeam: int,
    homeScore: int,
    awayScore: int,
    puckDrop: string)

  /** A participant of an event: the player id and the player's role in it. */
  datatype Slot = Slot(player: int, role: string)

  /** The four participant slots of an event; an empty slot is `None`. */
  type Slots = s: seq<Option<Slot>> | |s| == 4 witness [None, None, None, None]

  const NoSlots: Slots := [None, None, None, None]

  /** An event is identified by the pair (game, eventId). */
  datatype Event = Event(
    game: string,
    eventId: string,
    description: string,
    primaryType: string,
    secondaryType: Option<string>,
    slots: Slots,
    period: int,
    timeRemaining: string)

  /** Slots are filled from slot 1 on: once one is empty, all later ones are. */
  predicate Contiguous(s: seq<Option<Slot>>) {
    forall k, j | 0 <= k < j < |s| :: s[k].None? ==> s[j].None?
  }
}

=== FILE: rows.dfy ===
/**
  The parameter tuples of the `insert_*` functions (insert_data.py): each
  record becomes one `INSERT INTO <table> VALUES(%s, ...)` with its fields in
  a fixed order; a `None` field is bound as SQL NULL.
 */
module Rows {
  import opened Wrappers
  import opened Records

  datatype SqlValue = SqlInt(i: int) | SqlText(s: string) | SqlNull

  datatype Table = DivisionsTable | TeamsTable | PlayersTable | GamesTable | EventsTable

  /** One executed INSERT: the target table and the bound parameters. */
  datatype Statement = Insert(table: Table, values: seq<SqlValue>)

  /** The number of `%s` placeholders in each table's INSERT statement. */
  function Arity(t: Table): nat {
    match t
    case DivisionsTable => 2
    case TeamsTable => 4
    case PlayersTable => 5
    case GamesTable => 6
    case EventsTable => 15
  }

  function TextOrNull(o: Option<string>): SqlValue {
    match o
    case Some(s) => SqlText(s)
    case None => SqlNull
  }

  function DivisionRow(d: Division): (st: Statement)
    ensures st.table == DivisionsTable && |st.values| == Arity(DivisionsTable)
    ensures st.values[0] == SqlInt(d.divisionKey)
    ensures DecodeDivision(st) == Some(d)
  {
    Insert(DivisionsTable, [SqlInt(d.divisionKey), SqlText(d.name)])
  }

  function TeamRow(t: Team): (st: Statement)
    ensures st.table == TeamsTable && |st.values| == Arity(TeamsTable)
    ensures st.values[0] == SqlInt(t.id)
    ensures DecodeTeam(st) == Some(t)
  {
    Insert(TeamsTable, [SqlInt(t.id), SqlText(t.name), SqlText(t.abbreviation), SqlInt(t.division)])
  }

  /** A player without a jersey number is inserted with a NULL number. */
  function PlayerRow(p: Player): (st: Statement)
    ensures st.table == PlayersTable && |st.values| == Arity(PlayersTable)
    ensures st.values[0] == SqlInt(p.playerId)
    ensures st.values[3] == SqlNull <==> p.number.None?
    ensures DecodePlayer(st) == Some(p)
  {
    Insert(PlayersTable, [SqlInt(p.playerId), SqlText(p.firstName), SqlText(p.lastName),
                          TextOrNull(p.number), SqlInt(p.team)])
  }

  function GameRow(g: Game): (st: Statement)
    ensures st.table == GamesTable && |st.values| == Arity(GamesTable)
    ensures st.values[0] == SqlText(g.gameId)
    ensures DecodeGame(st) == Some(g)
  {
    Insert(GamesTable, [SqlText(g.gameId), SqlInt(g.homeTeam), SqlInt(g.awayTeam),
                        SqlInt(g.homeScore), SqlInt(g.awayScore), SqlText(g.puckDrop)])
  }

  /** A slot as its two columns: the player id and the player's role. */
  function SlotColumns(s: Option<Slot>): (cols: seq<SqlValue>)
    ensures |cols| == 2
    ensures s.None? <==> cols[0] == SqlNull
    ensures s.None? <==> cols[1] == SqlNull
    ensures ReadSlot(cols[0], cols[1]) == Some(s)
  {
    match s
    case Some(slot) => [SqlInt(slot.player), SqlText(slot.role)]
    case None => [SqlNull, SqlNull]
  }

  /** The four slots as eight columns, slot 1 first. */
  function AllSlotColumns(s: Slots): (cols: seq<SqlValue>)
    ensures |cols| == 8
    ensures forall k | 0 <= k < 4 :: cols[2 * k] == SlotColumns(s[k])[0] && cols[2 * k + 1] == SlotColumns(s[k])[1]
    ensures DecodeSlots(cols) == Some(s)
  {
    var cols := SlotColumns(s[0]) + SlotColumns(s[1]) + SlotColumns(s[2]) + SlotColumns(s[3]);
    assert [s[0], s[1], s[2], s[3]] == s;
    cols
  }

  /**
    The 15 columns of an event: game, event id, description, primary type,
    secondary type, four (player, role) pairs, period, time remaining.
   */
  function EventRow(e: Event): (st: Statement)
    ensures st.table == EventsTable && |st.values| == Arity(EventsTable)
    ensures st.values[0] == SqlText(e.game) && st.values[1] == SqlText(e.eventId)
    ensures st.values[4] == SqlNull <==> e.secondaryType.None?
    ensures forall k | 0 <= k < 4 :: (st.values[5 + 2 * k] == SqlNull <==> e.slots[k].None?)
    ensures DecodeSlots(st.values[5..13]) == Some(e.slots)
  {
    var cols := AllSlotColumns(e.slots);
    var v := [SqlText(e.game), SqlText(e.eventId), SqlText(e.description), SqlText(e.primaryType),
              TextOrNull(e.secondaryType)]
             + cols
             + [SqlInt(e.period), SqlText(e.timeRemaining)];
    assert v[5..13] == cols;
    assert forall k | 0 <= k < 8 :: v[5 + k] == cols[k];
    Insert(EventsTable, v)
  }

  /** An event's row reads back as the same event. */
  lemma EventRowDecodes(e: Event)
    ensures DecodeEvent(EventRow(e)) == Some(e)
  {
  }

  // ---- reading a row back; each projection above loses nothing ----

  function ReadInt(v: SqlValue): Option<int> {
    if v.SqlInt? then Some(v.i) else None
  }

  function ReadText(v: SqlValue): Option<string> {
    if v.SqlText? then Some(v.s) else None
  }

  function ReadTextOrNull(v: SqlValue): Option<Option<string>> {
    match v
    case SqlText(s) => Some(Some(s))
    case SqlNull => Some(None)
    case SqlInt(_) => None
  }

  function ReadSlot(id: SqlValue, role: SqlValue): Option<Option<Slot>> {
    if id == SqlNull && role == SqlNull then Some(None)
    else if id.SqlInt? && role.SqlText? then Some(Some(Slot(id.i, role.s)))
    else None
  }

  function DecodeDivision(st: Statement): Option<Division> {
    if st.table == DivisionsTable && |st.values| == 2
       && st.values[0].SqlInt? && st.values[1].SqlText?
    then Some(Division(st.values[0].i, st.values[1].s))
    else None
  }

  function DecodeTeam(st: Statement): Option<Team> {
    if st.table == TeamsTable && |st.values| == 4
       && st.values[0].SqlInt? && st.values[1].SqlText? && st.values[2].SqlText? && st.values[3].SqlInt?
    then Some(Team(st.values[0].i, st.values[1].s, st.values[2].s, st.values[3].i))
    else None
  }

  function DecodePlayer(st: Statement): Option<Player> {
    if st.table == PlayersTable && |st.values| == 5
       && st.values[0].SqlInt? && st.values[1].SqlText? && st.values[2].SqlText?
       && ReadTextOrNull(st.values[3]).Some? && st.values[4].SqlInt?
    then Some(Player(st.values[0].i, st.values[1].s, st.values[2].s,
                     ReadTextOrNull(st.values[3]).value, st.values[4].i))
    else None
  }

  function DecodeGame(st: Statement): Option<Game> {
    if st.table == GamesTable && |st.values| == 6
       && st.values[0].SqlText? && st.values[1].SqlInt? && st.values[2].SqlInt?
       && st.values[3].SqlInt? && st.values[4].SqlInt? && st.values[5].SqlText?
    then Some(Game(st.values[0].s, st.values[1].i, st.values[2].i,
                   st.values[3].i, st.values[4].i, st.values[5].s))
    else None
  }

  /** Eight columns read back as four slots. */
  function DecodeSlots(cols: seq<SqlValue>): Option<Slots>
    requires |cols| == 8
  {
    var s0 := ReadSlot(cols[0], cols[1]);
    var s1 := ReadSlot(cols[2], cols[3]);
    var s2 := ReadSlot(cols[4], cols[5]);
    var s3 := ReadSlot(cols[6], cols[7]);
    if s0.Some? && s1.Some? && s2.Some? && s3.Some? then Some([s0.value, s1.value, s2.value, s3.value])
    else None
  }

  function DecodeEvent(st: Statement): Option<Event> {
    if st.table != EventsTable || |st.values| != 15 then None
    else
      var v := st.values;
      var slots := DecodeSlots(v[5..13]);
      if && v[0].SqlText? && v[1].SqlText? && v[2].SqlText? && v[3].SqlText?
         && ReadTextOrNull(v[4]).Some? && slots.Some?
         && v[13].SqlInt? && v[14].SqlText?
      then Some(Event(v[0].s, v[1].s, v[2].s, v[3].s, ReadTextOrNull(v[4]).value,
                      slots.value, v[13].i, v[14].s))
      else None
  }

}

=== FILE: schedule.dfy ===
/**
  `get_game_ids` and `get_games` (get_funcs.py): one schedule request per
  team for the window [start, end], reading only `games[0]` of each listed
  date. A game appears in the schedule of both its teams; the id list keeps
  each id once in first-seen order, and the game dict keeps the FIRST record
  seen for an id (a later sighting is not even read).
 */
module Schedule {
  import opened Wrappers
  import opened Seqs
  import opened Dicts
  import opened Text
  import opened Raw
  import opened Records
  import opened Upstream

  /** `str(game['games'][0]['gamePk'])`. */
  function DateGameId(date: ScheduleDate): (r: Result<string, Error>)
    ensures r.Ok? <==> date.games.Some? && |date.games.value| > 0 && date.games.value[0].gamePk.Some?
    ensures r.Ok? ==> r.value == IntToString(date.games.value[0].gamePk.value)
    ensures r.Err? ==> r.error == KeyError || r.error == IndexError
  {
    var games :- Field(date.games);
    var first :- At(games, 0);
    var pk :- Field(first.gamePk);
    Ok(IntToString(pk))
  }

  /** The record `get_games` builds for a first sighting, from `games[0]`. */
  function DateGame(date: ScheduleDate, id: string): (r: Result<Game, Error>)
    ensures r.Ok? <==> && date.games.Some? && |date.games.value| > 0
                       && var g := date.games.value[0];
                          g.homeTeamId.Some? && g.awayTeamId.Some? && g.homeScore.Some?
                          && g.awayScore.Some? && g.gameDate.Some?
    ensures r.Ok? ==> var g := date.games.value[0];
                      r.value == Game(id, g.homeTeamId.value, g.awayTeamId.value,
                                      g.homeScore.value, g.awayScore.value, g.gameDate.value)
    ensures r.Err? ==> r.error == KeyError || (r.error == IndexError && date.games == Some([]))
  {
    var games :- Field(date.games);
    var g :- At(games, 0);
    var home :- Field(g.homeTeamId);
    var away :- Field(g.awayTeamId);
    var homeScore :- Field(g.homeScore);
    var awayScore :- Field(g.awayScore);
    var puckDrop :- Field(g.gameDate);
    Ok(Game(id, home, away, homeScore, awayScore, puckDrop))
  }

  /** Both readings of a date look at `games[0]` only. */
  lemma FirstGameOnly(g: ScheduledGame, rest: seq<ScheduledGame>, id: string)
    ensures DateGameId(ScheduleDate(Some([g] + rest))) == DateGameId(ScheduleDate(Some([g])))
    ensures DateGame(ScheduleDate(Some([g] + rest)), id) == DateGame(ScheduleDate(Some([g])), id)
  {
  }

  /** One team's schedule for the window: the request, then `schedule['dates']`. */
  function TeamDates(svc: Service, team: int, start: string, end: string): (r: Result<seq<ScheduleDate>, Error>)
    ensures r.Err? ==> r.error == RequestFailed || r.error == KeyError
  {
    var body :- FetchSchedule(svc, team, start, end);
    Field(body.dates)
  }

  function ScheduleRequests(teams: seq<int>, start: string, end: string): (qs: seq<Request>)
    ensures |qs| == |teams|
    ensures forall i | 0 <= i < |teams| :: qs[i] == ScheduleRequest(teams[i], start, end)
  {
    if teams == [] then []
    else ScheduleRequests(teams[..|teams| - 1], start, end) + [ScheduleRequest(teams[|teams| - 1], start, end)]
  }

  // ---- get_game_ids ----

  /**
    The inner loop of `get_game_ids`: append every id not yet in the list.
    The ids already listed stay where they are, and the list gains no repeat.
   */
  function CollectIds(seen: seq<string>, dates: seq<ScheduleDate>): (r: Result<seq<string>, Error>)
    ensures r.Ok? ==> seen <= r.value
    ensures r.Ok? && Distinct(seen) ==> Distinct(r.value)
    ensures r.Err? ==> r.error == KeyError || r.error == IndexError
    decreases |dates|
  {
    if dates == [] then Ok(seen)
    else
      var prior :- CollectIds(seen, dates[..|dates| - 1]);
      var id :- DateGameId(dates[|dates| - 1]);
      Ok(if id in prior then prior else prior + [id])
  }

  /**
    `get_game_ids(team_ids, start_date, end_date)`. Every request it issues
    asks for the window [start, end]; the ids are distinct.
   */
  function GetGameIds(svc: Service, teams: seq<int>, start: string, end: string): (r: Fetched<seq<string>>)
    ensures r.requests <= ScheduleRequests(teams, start, end)
    ensures r.result.Ok? ==> r.requests == ScheduleRequests(teams, start, end)
    ensures r.result.Ok? ==> Distinct(r.result.value)
    decreases |teams|
  {
    if teams == [] then Fetched([], Ok([]))
    else
      var prior := GetGameIds(svc, teams[..|teams| - 1], start, end);
      if prior.result.Err? then
        assert ScheduleRequests(teams[..|teams| - 1], start, end) <= ScheduleRequests(teams, start, end);
        prior
      else
        var team := teams[|teams| - 1];
        Fetched(prior.requests + [ScheduleRequest(team, start, end)], TeamGameIds(svc, team, start, end, prior.result.value))
  }

  /** One iteration of the outer loop of `get_game_ids`. */
  function TeamGameIds(svc: Service, team: int, start: string, end: string, seen: seq<string>): (r: Result<seq<string>, Error>)
    ensures Distinct(seen) && r.Ok? ==> Distinct(r.value)
  {
    var dates :- TeamDates(svc, team, start, end);
    CollectIds(seen, dates)
  }

  // ---- reference: every listed date of every team, in order ----

  /** All dates of all teams' schedules, concatenated in request order. */
  function AllDates(svc: Service, teams: seq<int>, start: string, end: string): Fetched<seq<ScheduleDate>>
    decreases |teams|
  {
    if teams == [] then Fetched([], Ok([]))
    else
      var prior := AllDates(svc, teams[..|teams| - 1], start, end);
      if prior.result.Err? then prior
      else
        var team := teams[|teams| - 1];
        Fetched(prior.requests + [ScheduleRequest(team, start, end)],
          var dates :- TeamDates(svc, team, start, end);
          Ok(prior.result.value + dates))
  }

  lemma {:induction false} CollectIdsIsDedup(a: seq<string>, dates: seq<ScheduleDate>)
    ensures CollectIds(Dedup(a), dates).Ok? <==> MapAll(dates, DateGameId).Ok?
    ensures CollectIds(Dedup(a), dates).Ok? ==>
              CollectIds(Dedup(a), dates).value == Dedup(a + MapAll(dates, DateGameId).value)
    decreases |dates|
  {
    if dates == [] {
      assert a + [] == a;
    } else {
      CollectIdsIsDedup(a, dates[..|dates| - 1]);
      CollectIdsDedupStep(a, dates);
    }
  }

  /** The inductive step of `CollectIdsIsDedup`: one more date. */
  lemma CollectIdsDedupStep(a: seq<string>, dates: seq<ScheduleDate>)
    requires dates != []
    requires var p := dates[..|dates| - 1];
             && (CollectIds(Dedup(a), p).Ok? <==> MapAll(p, DateGameId).Ok?)
             && (CollectIds(Dedup(a), p).Ok? ==> CollectIds(Dedup(a), p).value == Dedup(a + MapAll(p, DateGameId).value))
    ensures CollectIds(Dedup(a), dates).Ok? <==> MapAll(dates, DateGameId).Ok?
    ensures CollectIds(Dedup(a), dates).Ok? ==>
              CollectIds(Dedup(a), dates).value == Dedup(a + MapAll(dates, DateGameId).value)
  {
    var p := dates[..|dates| - 1];
    var x := dates[|dates| - 1];
    var prior := CollectIds(Dedup(a), p);
    var ids := MapAll(p, DateGameId);
    if prior.Err? {
      assert CollectIds(Dedup(a), dates).Err? && ids.Err?;
      assert MapAll(dates, DateGameId).Err?;
    } else if DateGameId(x).Err? {
      assert CollectIds(Dedup(a), dates).Err?;
      assert MapAll(dates, DateGameId).Err?;
    } else {
      var id := DateGameId(x).value;
      assert CollectIds(Dedup(a), dates) == Ok(if id in prior.value then prior.value else prior.value + [id]);
      assert MapAll(dates, DateGameId) == Ok(ids.value + [id]);
      DedupAppend(a, ids.value, id);
      AppendAssoc(a, ids.value, [id]);
    }
  }

  /**
    `get_game_ids` succeeds exactly when every team's schedule was fetched
    and every listed date names a game id; it then returns those ids without
    repeats, in the order they were first seen.
   */
  lemma {:induction false} GameIdsFirstSeen(svc: Service, teams: seq<int>, start: string, end: string)
    ensures var r := GetGameIds(svc, teams, start, end);
            var all := AllDates(svc, teams, start, end);
            && (r.result.Ok? <==> all.result.Ok? && MapAll(all.result.value, DateGameId).Ok?)
            && (r.result.Ok? ==>
                  r.requests == all.requests
                  && r.result.value == Dedup(MapAll(all.result.value, DateGameId).value))
    decreases |teams|
  {
    if teams != [] {
      var p := teams[..|teams| - 1];
      var team := teams[|teams| - 1];
      GameIdsFirstSeen(svc, p, start, end);
      var prior := GetGameIds(svc, p, start, end);
      var allPrior := AllDates(svc, p, start, end);
      var td := TeamDates(svc, team, start, end);
      if allPrior.result.Ok? && td.Ok? {
        var ds := allPrior.result.value;
        var dt := td.value;
        assert AllDates(svc, teams, start, end).result == Ok(ds + dt);
        MapAllAppend(ds, dt, DateGameId);
        if prior.result.Ok? {
          var ids := MapAll(ds, DateGameId).value;
          assert prior.result.value == Dedup(ids);
          assert GetGameIds(svc, teams, start, end).result == CollectIds(Dedup(ids), dt);
          CollectIdsIsDedup(ids, dt);
        }
      }
    }
  }

  // ---- get_games ----

  /** Every entry is stored under its own game id. */
  predicate KeyedById(d: Dict<string, Game>) {
    forall i | 0 <= i < |d| :: d[i].0 == d[i].1.gameId
  }

  /**
    The inner loop of `get_games`: `if game_id not in games: games[game_id] = {...}`.
    The fields of a date are read only when its id is new.
   */
  function PutFirstSightings(d: Dict<string, Game>, dates: seq<ScheduleDate>): (r: Result<Dict<string, Game>, Error>)
    ensures KeyedById(d) && Distinct(Keys(d)) && r.Ok? ==> KeyedById(r.value) && Distinct(Keys(r.value))
    decreases |dates|
  {
    if dates == [] then Ok(d)
    else
      var prior :- PutFirstSightings(d, dates[..|dates| - 1]);
      PutFirstSighting(prior, dates[|dates| - 1])
  }

  /** One iteration of the inner loop of `get_games`. */
  function PutFirstSighting(d: Dict<string, Game>, date: ScheduleDate): (r: Result<Dict<string, Game>, Error>)
    ensures KeyedById(d) && Distinct(Keys(d)) && r.Ok? ==> KeyedById(r.value) && Distinct(Keys(r.value))
  {
    var id :- DateGameId(date);
    if id in Keys(d) then Ok(d)
    else
      var g :- DateGame(date, id);
      assert Put(d, id, g) == d + [(id, g)];
      Ok(Put(d, id, g))
  }

  /**
    `get_games(team_ids, start_date, end_date)`: the same traversal as
    `get_game_ids`, keeping a record per id.
   */
  function GetGames(svc: Service, teams: seq<int>, start: string, end: string): (r: Fetched<Dict<string, Game>>)
    ensures r.requests <= ScheduleRequests(teams, start, end)
    ensures r.result.Ok? ==> r.requests == ScheduleRequests(teams, start, end)
    ensures r.result.Ok? ==> KeyedById(r.result.value) && Distinct(Keys(r.result.value))
    decreases |teams|
  {
    if teams == [] then Fetched([], Ok([]))
    else
      var prior := GetGames(svc, teams[..|teams| - 1], start, end);
      if prior.result.Err? then
        assert ScheduleRequests(teams[..|teams| - 1], start, end) <= ScheduleRequests(teams, start, end);
        prior
      else
        var team := teams[|teams| - 1];
        Fetched(prior.requests + [ScheduleRequest(team, start, end)], TeamGames(svc, team, start, end, prior.result.value))
  }

  /** One iteration of the outer loop of `get_games`. */
  function TeamGames(svc: Service, team: int, start: string, end: string, d: Dict<string, Game>): (r: Result<Dict<string, Game>, Error>)
    ensures KeyedById(d) && Distinct(Keys(d)) && r.Ok? ==> KeyedById(r.value) && Distinct(Keys(r.value))
  {
    var dates :- TeamDates(svc, team, start, end);
    PutFirstSightings(d, dates)
  }

  /** Position `i` is the first listing of its id. */
  predicate FirstSighting(ids: seq<string>, i: nat)
    requires i < |ids|
  {
    forall j | 0 <= j < i :: ids[j] != ids[i]
  }

  /** Every first sighting in `ids` has all game fields in its date. */
  predicate FirstSightingsReadable(dates: seq<ScheduleDate>, ids: seq<string>)
    requires |ids| == |dates|
  {
    forall i | 0 <= i < |dates| && FirstSighting(ids, i) :: DateGame(dates[i], ids[i]).Ok?
  }

  /** Every date names a game id, and every first sighting has all game fields. */
  predicate GamesReadable(dates: seq<ScheduleDate>) {
    && MapAll(dates, DateGameId).Ok?
    && FirstSightingsReadable(dates, MapAll(dates, DateGameId).value)
  }

  /** Appending one date with id `id` adds one obligation, owed only by a new id. */
  lemma FirstSightingsReadableAppend(p: seq<ScheduleDate>, pids: seq<string>, x: ScheduleDate, id: string)
    requires |pids| == |p|
    ensures FirstSightingsReadable(p + [x], pids + [id]) <==>
              FirstSightingsReadable(p, pids) && (id !in pids ==> DateGame(x, id).Ok?)
  {
    var dates := p + [x];
    var ids := pids + [id];
    assert forall i | 0 <= i < |p| :: dates[i] == p[i] && ids[i] == pids[i];
    assert forall i | 0 <= i < |p| :: FirstSighting(ids, i) == FirstSighting(pids, i);
    assert FirstSighting(ids, |p|) <==> id !in pids;
  }

  /** Readability of `p + [x]` is that of `p` plus what the new date must offer. */
  lemma GamesReadableStep(p: seq<ScheduleDate>, x: ScheduleDate)
    ensures GamesReadable(p + [x]) <==>
              && GamesReadable(p)
              && DateGameId(x).Ok?
              && (DateGameId(x).value !in MapAll(p, DateGameId).value ==> DateGame(x, DateGameId(x).value).Ok?)
  {
    var dates := p + [x];
    assert dates[..|dates| - 1] == p;
    if MapAll(p, DateGameId).Ok? && DateGameId(x).Ok? {
      var pids := MapAll(p, DateGameId).value;
      var id := DateGameId(x).value;
      assert MapAll(dates, DateGameId) == Ok(pids + [id]);
      FirstSightingsReadableAppend(p, pids, x, id);
    }
  }

  /** The keys of the loop's dict are the listed ids in first-seen order. */
  lemma {:induction false} FirstSightingKeys(dates: seq<ScheduleDate>)
    requires PutFirstSightings([], dates).Ok?
    ensures MapAll(dates, DateGameId).Ok?
    ensures Keys(PutFirstSightings([], dates).value) == Dedup(MapAll(dates, DateGameId).value)
    decreases |dates|
  {
    if dates != [] {
      var p := dates[..|dates| - 1];
      var x := dates[|dates| - 1];
      PutFirstSightingsLast([], dates);
      FirstSightingKeys(p);
      var prior := PutFirstSightings([], p).value;
      PutFirstSightingKeys(prior, x);
      var pids := MapAll(p, DateGameId).value;
      var id := DateGameId(x).value;
      assert MapAll(dates, DateGameId) == Ok(pids + [id]);
      DedupAppend([], pids, id);
      assert [] + pids == pids;
    }
  }

  /** One date adds its id to the keys exactly when the id is new. */
  lemma PutFirstSightingKeys(d: Dict<string, Game>, x: ScheduleDate)
    requires PutFirstSighting(d, x).Ok?
    ensures DateGameId(x).Ok?
    ensures var id := DateGameId(x).value;
            Keys(PutFirstSighting(d, x).value) == if id in Keys(d) then Keys(d) else Keys(d) + [id]
  {
  }

  /** The loop over a list of dates succeeds exactly when the dates are readable. */
  lemma {:induction false} FirstSightingReadable(dates: seq<ScheduleDate>)
    ensures PutFirstSightings([], dates).Ok? <==> GamesReadable(dates)
    decreases |dates|
  {
    if dates != [] {
      var p := dates[..|dates| - 1];
      var x := dates[|dates| - 1];
      assert p + [x] == dates;
      FirstSightingReadable(p);
      GamesReadableStep(p, x);
      PutFirstSightingsLast([], dates);
      var prior := PutFirstSightings([], p);
      if prior.Ok? {
        FirstSightingKeys(p);
        var pids := MapAll(p, DateGameId).value;
        assert forall id :: id in Keys(prior.value) <==> id in pids;
      }
    }
  }

  /** For each first sighting, the loop's dict holds that date's record. */
  predicate KeepsFirst(dates: seq<ScheduleDate>, ids: seq<string>, g: Dict<string, Game>)
    requires |ids| == |dates|
  {
    forall i | 0 <= i < |dates| && FirstSighting(ids, i) ::
      Get(g, ids[i]).Some? && DateGame(dates[i], ids[i]) == Ok(Get(g, ids[i]).value)
  }

  /**
    Over a list of dates, the loop keeps for each id the record of the FIRST
    date that lists it.
   */
  lemma {:induction false} FirstSightingWins(dates: seq<ScheduleDate>)
    requires PutFirstSightings([], dates).Ok?
    ensures MapAll(dates, DateGameId).Ok?
    ensures KeepsFirst(dates, MapAll(dates, DateGameId).value, PutFirstSightings([], dates).value)
    decreases |dates|
  {
    FirstSightingKeys(dates);
    if dates != [] {
      var p := dates[..|dates| - 1];
      FirstSightingWins(p);
      FirstSightingKeys(p);
      FirstSightingStep(dates);
    }
  }

  lemma FirstSightingStep(dates: seq<ScheduleDate>)
    requires dates != [] && PutFirstSightings([], dates).Ok?
    requires var p := dates[..|dates| - 1];
             && PutFirstSightings([], p).Ok? && MapAll(p, DateGameId).Ok?
             && Keys(PutFirstSightings([], p).value) == Dedup(MapAll(p, DateGameId).value)
             && KeepsFirst(p, MapAll(p, DateGameId).value, PutFirstSightings([], p).value)
    ensures MapAll(dates, DateGameId).Ok?
    ensures KeepsFirst(dates, MapAll(dates, DateGameId).value, PutFirstSightings([], dates).value)
  {
    var p := dates[..|dates| - 1];
    var x := dates[|dates| - 1];
    PutFirstSightingsLast([], dates);
    var prior := PutFirstSightings([], p).value;
    var pids := MapAll(p, DateGameId).value;
    assert DateGameId(x).Ok?;
    var id := DateGameId(x).value;
    assert MapAll(dates, DateGameId) == Ok(pids + [id]);
    assert id in Keys(prior) <==> id in pids by {
      assert Keys(prior) == Dedup(pids);
    }
    if id in pids {
      assert PutFirstSightings([], dates).value == prior;
      KeepsFirstRepeat(dates, pids, prior, id);
    } else {
      var game := DateGame(x, id).value;
      assert PutFirstSightings([], dates).value == Put(prior, id, game);
      KeepsFirstNew(dates, pids, prior, id, game);
    }
  }

  /** A date whose id was seen before changes nothing. */
  lemma KeepsFirstRepeat(dates: seq<ScheduleDate>, pids: seq<string>, g: Dict<string, Game>, id: string)
    requires |dates| > 0 && |pids| == |dates| - 1
    requires KeepsFirst(dates[..|dates| - 1], pids, g) && id in pids
    ensures KeepsFirst(dates, pids + [id], g)
  {
    var ids := pids + [id];
    var p := dates[..|dates| - 1];
    var j := FirstIndex(pids, id);
    assert ids[j] == ids[|p|];
    assert forall k | 0 <= k < |pids| :: ids[k] == pids[k];
    forall i | 0 <= i < |dates| && FirstSighting(ids, i)
      ensures Get(g, ids[i]).Some? && DateGame(dates[i], ids[i]) == Ok(Get(g, ids[i]).value)
    {
      assert i < |p|;
      assert FirstSighting(pids, i) && ids[i] == pids[i] && dates[i] == p[i];
    }
  }

  /** A date with a new id adds its own record under that id. */
  lemma KeepsFirstNew(dates: seq<ScheduleDate>, pids: seq<string>, g: Dict<string, Game>, id: string, game: Game)
    requires |dates| > 0 && |pids| == |dates| - 1
    requires KeepsFirst(dates[..|dates| - 1], pids, g) && id !in pids
    requires DateGame(dates[|dates| - 1], id) == Ok(game)
    ensures KeepsFirst(dates, pids + [id], Put(g, id, game))
  {
    var ids := pids + [id];
    var p := dates[..|dates| - 1];
    var x := dates[|dates| - 1];
    var g' := Put(g, id, game);
    assert forall k | 0 <= k < |pids| :: ids[k] == pids[k];
    forall i | 0 <= i < |dates| && FirstSighting(ids, i)
      ensures Get(g', ids[i]).Some? && DateGame(dates[i], ids[i]) == Ok(Get(g', ids[i]).value)
    {
      if i < |p| {
        assert FirstSighting(pids, i) && ids[i] == pids[i] && dates[i] == p[i];
        assert ids[i] != id;
      } else {
        assert ids[i] == id && dates[i] == x;
      }
    }
  }

  /** The loop's result after one more date, in terms of the result before it. */
  function AfterSighting(r: Result<Dict<string, Game>, Error>, date: ScheduleDate): Result<Dict<string, Game>, Error> {
    match r
    case Ok(m) => PutFirstSighting(m, date)
    case Err(e) => Err(e)
  }

  lemma PutFirstSightingsSnoc(d: Dict<string, Game>, s: seq<ScheduleDate>, y: ScheduleDate)
    ensures PutFirstSightings(d, s + [y]) == AfterSighting(PutFirstSightings(d, s), y)
  {
    assert (s + [y])[..|s|] == s;
  }

  lemma PutFirstSightingsLast(d: Dict<string, Game>, dates: seq<ScheduleDate>)
    requires dates != []
    ensures PutFirstSightings(d, dates) == AfterSighting(PutFirstSightings(d, dates[..|dates| - 1]), dates[|dates| - 1])
  {
  }

  lemma {:induction false} PutFirstSightingsAppend(d: Dict<string, Game>, a: seq<ScheduleDate>, b: seq<ScheduleDate>)
    ensures PutFirstSightings(d, a + b) ==
              (match PutFirstSightings(d, a)
               case Ok(m) => PutFirstSightings(m, b)
               case Err(e) => Err(e))
    decreases |b|
  {
    if b == [] {
      assert a + b == a;
    } else {
      var q := b[..|b| - 1];
      var y := b[|b| - 1];
      assert q + [y] == b;
      assert a + b == (a + q) + [y];
      PutFirstSightingsAppend(d, a, q);
      PutFirstSightingsSnoc(d, a + q, y);
      if PutFirstSightings(d, a).Ok? {
        PutFirstSightingsSnoc(PutFirstSightings(d, a).value, q, y);
      }
    }
  }

  /**
    `get_games` succeeds with the loop over all teams' dates at once; a game
    both of whose teams list it is kept once, with the first team's record.
   */
  lemma {:induction false} GamesFirstWins(svc: Service, teams: seq<int>, start: string, end: string)
    ensures var r := GetGames(svc, teams, start, end);
            var all := AllDates(svc, teams, start, end);
            && (r.result.Ok? <==> all.result.Ok? && PutFirstSightings([], all.result.value).Ok?)
            && (r.result.Ok? ==>
                  r.requests == all.requests
                  && r.result == PutFirstSightings([], all.result.value))
    decreases |teams|
  {
    if teams != [] {
      var p := teams[..|teams| - 1];
      var team := teams[|teams| - 1];
      GamesFirstWins(svc, p, start, end);
      var allPrior := AllDates(svc, p, start, end);
      if allPrior.result.Ok? && TeamDates(svc, team, start, end).Ok? {
        PutFirstSightingsAppend([], allPrior.result.value, TeamDates(svc, team, start, end).value);
      }
    }
  }

  /** The two traversals agree: the games dict is keyed by exactly the ids `get_game_ids` lists. */
  lemma GamesKeysAreGameIds(svc: Service, teams: seq<int>, start: string, end: string)
    requires GetGames(svc, teams, start, end).result.Ok?
    ensures GetGameIds(svc, teams, start, end).result.Ok?
    ensures Keys(GetGames(svc, teams, start, end).result.value) == GetGameIds(svc, teams, start, end).result.value
  {
    GamesFirstWins(svc, teams, start, end);
    GameIdsFirstSeen(svc, teams, start, end);
    FirstSightingKeys(AllDates(svc, teams, start, end).result.value);
  }
}

=== FILE: seqs.dfy ===
/**
  Sequence utilities shared by the normalizer: the first-seen de-duplication
  that `get_game_ids` performs with `if game_id not in game_ids`, and the
  "apply to every element, stop at the first exception" shape of every
  `for ... in ...` loop whose body can raise.
 */
module Seqs {
  import opened Wrappers

  predicate Distinct<T(==)>(s: seq<T>) {
    forall i, j | 0 <= i < j < |s| :: s[i] != s[j]
  }

  /** Index of the first occurrence of `x` in `s`. */
  function FirstIndex<T(==)>(s: seq<T>, x: T): (k: nat)
    requires x in s
    ensures k < |s| && s[k] == x
    ensures forall j | 0 <= j < k :: s[j] != x
  {
    if s[0] == x then 0 else 1 + FirstIndex(s[1..], x)
  }

  /**
    The elements of `s` in the order they are first seen, each once: the list
    a loop builds by appending every element not already present.
   */
  function Dedup<T(==)>(s: seq<T>): (r: seq<T>)
    ensures Distinct(r)
    ensures forall i | 0 <= i < |r| :: r[i] in s
    ensures forall i | 0 <= i < |s| :: s[i] in r
  {
    if s == [] then []
    else
      var prior := Dedup(s[..|s| - 1]);
      var x := s[|s| - 1];
      assert forall i | 0 <= i < |s| - 1 :: s[i] == s[..|s| - 1][i];
      if x in prior then prior else prior + [x]
  }

  /** Continuing the de-duplicating loop from `Dedup(a)` over `b` de-duplicates `a + b`. */
  lemma {:induction false} DedupAppend<T>(a: seq<T>, b: seq<T>, x: T)
    ensures Dedup(a + b + [x]) == (if x in Dedup(a + b) then Dedup(a + b) else Dedup(a + b) + [x])
  {
    assert (a + b + [x])[..|a + b + [x]| - 1] == a + b;
  }

  /** `Dedup` keeps the order of first sightings. */
  lemma {:induction false} DedupFirstSeenOrder<T>(s: seq<T>, i: nat, j: nat)
    requires i < j < |Dedup(s)|
    ensures Dedup(s)[i] in s && Dedup(s)[j] in s
    ensures FirstIndex(s, Dedup(s)[i]) < FirstIndex(s, Dedup(s)[j])
    decreases |s|
  {
    var p := s[..|s| - 1];
    var x := s[|s| - 1];
    var prior := Dedup(p);
    FirstIndexPrefix(s, p, Dedup(s)[i]);
    FirstIndexPrefix(s, p, Dedup(s)[j]);
    if x in prior {
      DedupFirstSeenOrder(p, i, j);
    } else if j < |prior| {
      DedupFirstSeenOrder(p, i, j);
    } else {
      assert Dedup(s)[j] == x && x !in p;
      assert FirstIndex(s, x) == |s| - 1;
    }
  }

  /** The first occurrence in `s` of an element of its prefix `p` lies in `p`. */
  lemma {:induction false} FirstIndexPrefix<T>(s: seq<T>, p: seq<T>, x: T)
    requires x in s && |s| > 0 && p == s[..|s| - 1]
    ensures x in p ==> FirstIndex(s, x) == FirstIndex(p, x)
    ensures x !in p ==> FirstIndex(s, x) == |s| - 1
  {
    var k := FirstIndex(s, x);
    if x in p {
      var kp := FirstIndex(p, x);
      assert s[kp] == x;
      assert k <= kp;
      assert p[k] == x;
    } else {
      assert forall j | 0 <= j < |s| - 1 :: s[j] == p[j];
    }
  }

  /**
    `[f(x) for x in s]` where `f` may raise: the first exception in order
    propagates.
   */
  function MapAll<T, U, E>(s: seq<T>, f: T -> Result<U, E>): (r: Result<seq<U>, E>)
    ensures r.Ok? <==> forall i | 0 <= i < |s| :: f(s[i]).Ok?
    ensures r.Ok? ==> |r.value| == |s| && forall i | 0 <= i < |s| :: r.value[i] == f(s[i]).value
    ensures r.Err? ==> exists i | 0 <= i < |s| ::
                         f(s[i]) == Err(r.error) && forall j | 0 <= j < i :: f(s[j]).Ok?
  {
    if s == [] then Ok([])
    else
      var prior :- MapAll(s[..|s| - 1], f);
      var y :- f(s[|s| - 1]);
      Ok(prior + [y])
  }

  /** Mapping a concatenation maps each part in turn. */
  lemma {:induction false} MapAllAppend<T, U, E>(a: seq<T>, b: seq<T>, f: T -> Result<U, E>)
    ensures MapAll(a + b, f).Ok? <==> MapAll(a, f).Ok? && MapAll(b, f).Ok?
    ensures MapAll(a + b, f).Ok? ==> MapAll(a + b, f).value == MapAll(a, f).value + MapAll(b, f).value
  {
    var ab := a + b;
    assert forall i | 0 <= i < |ab| :: ab[i] == if i < |a| then a[i] else b[i - |a|];
    if MapAll(ab, f).Ok? {
      assert forall i | 0 <= i < |b| :: f(b[i]) == f(ab[|a| + i]);
    }
  }

  /**
    Regrouping a concatenation. Stated as its own lemma so that a proof with a
    large context can use it without the solver searching for it.
   */
  lemma AppendAssoc<T>(a: seq<T>, b: seq<T>, c: seq<T>)
    ensures a + (b + c) == a + b + c
  {
  }
}

=== FILE: text.dfy ===
/**
  The string operations the ingest scripts rely on: `str.split(sep)`,
  `str(int)` (used to turn a `gamePk` into a game id) and the zero-padded
  decimal fields of a `YYYY-MM-DD` date.
 */
module Text {

  /** `sep.join(parts)`. */
  function Join(parts: seq<string>, sep: char): string {
    if parts == [] then ""
    else if |parts| == 1 then parts[0]
    else Join(parts[..|parts| - 1], sep) + [sep] + parts[|parts| - 1]
  }

  /**
    `s.split(sep)` with an explicit separator: cut at EVERY occurrence, so the
    result has one more piece than `s` has separators, and pieces may be
    empty (`"a  b".split(" ") == ["a", "", "b"]`, `"".split(" ") == [""]`).
   */
  function Split(s: string, sep: char): (parts: seq<string>)
    ensures |parts| == Count(s, sep) + 1
    ensures forall i | 0 <= i < |parts| :: sep !in parts[i]
    ensures Join(parts, sep) == s
  {
    if s == [] then [""]
    else
      var prior := Split(s[..|s| - 1], sep);
      var c := s[|s| - 1];
      assert s == s[..|s| - 1] + [c];
      if c == sep then
        prior + [""]
      else
        var last := prior[|prior| - 1] + [c];
        var r := prior[..|prior| - 1] + [last];
        JoinReplaceLast(prior, sep, c);
        r
  }

  /** Extending the last piece extends the joined string. */
  lemma {:induction false} JoinReplaceLast(parts: seq<string>, sep: char, c: char)
    requires |parts| > 0
    ensures Join(parts[..|parts| - 1] + [parts[|parts| - 1] + [c]], sep) == Join(parts, sep) + [c]
  {
    var r := parts[..|parts| - 1] + [parts[|parts| - 1] + [c]];
    assert r[..|r| - 1] == parts[..|parts| - 1];
  }

  /** Number of occurrences of `c` in `s`. */
  function Count(s: string, c: char): nat {
    if s == [] then 0 else Count(s[..|s| - 1], c) + (if s[|s| - 1] == c then 1 else 0)
  }

  lemma {:induction false} CountZero(s: string, c: char)
    ensures Count(s, c) == 0 <==> c !in s
  {
    if s != [] {
      CountZero(s[..|s| - 1], c);
      assert s == s[..|s| - 1] + [s[|s| - 1]];
    }
  }

  /**
    When `s` contains the separator, the first piece is the text before its
    first occurrence, and the first two pieces with the separator between
    them are a prefix of `s`: later pieces are simply not looked at.
   */
  lemma {:induction false} SplitHead(s: string, sep: char, k: nat)
    requires k < |s| && s[k] == sep && sep !in s[..k]
    ensures |Split(s, sep)| >= 2
    ensures Split(s, sep)[0] == s[..k]
    ensures Split(s, sep)[0] + [sep] + Split(s, sep)[1] <= s
    ensures var n := |Split(s, sep)[0]| + 1 + |Split(s, sep)[1]|; n == |s| || s[n] == sep
  {
    var parts := Split(s, sep);
    CountZero(s, sep);
    JoinPrefix(parts, sep);
    var n := |parts[0]|;
    assert s[..n] == parts[0] && s[n] == sep;
  }

  lemma {:induction false} JoinPrefix(parts: seq<string>, sep: char)
    requires |parts| >= 2
    ensures parts[0] + [sep] + parts[1] <= Join(parts, sep)
    ensures var n := |parts[0]| + 1 + |parts[1]|; n == |Join(parts, sep)| || Join(parts, sep)[n] == sep
  {
    if |parts| == 2 {
      JoinTwo(parts, sep);
    } else {
      var init := parts[..|parts| - 1];
      JoinPrefix(init, sep);
      assert Join(parts, sep) == Join(init, sep) + [sep] + parts[|parts| - 1];
    }
  }

  lemma {:induction false} SplitNoSep(s: string, sep: char)
    requires sep !in s
    ensures Split(s, sep) == [s]
  {
    CountZero(s, sep);
    var parts := Split(s, sep);
    assert Join(parts, sep) == parts[0];
  }

  lemma JoinTwo(parts: seq<string>, sep: char)
    requires |parts| == 2
    ensures Join(parts, sep) == parts[0] + [sep] + parts[1]
  {
    assert parts[..1] == [parts[0]];
  }

  // ---- decimal digits ----

  function DigitChar(d: nat): char
    requires d < 10
  {
    "0123456789"[d]
  }

  predicate IsDigit(c: char) {
    '0' <= c <= '9'
  }

  function DigitValue(c: char): nat
    requires IsDigit(c)
  {
    (c as int - '0' as int) as nat
  }

  /** The value of a string of decimal digits, most significant first. */
  function ParseDigits(s: string): nat
    requires forall i | 0 <= i < |s| :: IsDigit(s[i])
  {
    if s == [] then 0 else 10 * ParseDigits(s[..|s| - 1]) + DigitValue(s[|s| - 1])
  }

  /** `str(n)` for `n >= 0`: the shortest decimal numeral. */
  function NatToString(n: nat): (s: string)
    ensures |s| >= 1
    ensures forall i | 0 <= i < |s| :: IsDigit(s[i])
    ensures |s| > 1 ==> s[0] != '0'
    ensures ParseDigits(s) == n
  {
    if n < 10 then [DigitChar(n)]
    else
      var prior := NatToString(n / 10);
      var s := prior + [DigitChar(n % 10)];
      assert s[..|s| - 1] == prior;
      s
  }

  /** `str(n)`: a minus sign before the numeral of a negative number. */
  function IntToString(n: int): (s: string)
    ensures n >= 0 ==> s == NatToString(n)
    ensures n < 0 ==> s == ['-'] + NatToString(-n)
  {
    if n >= 0 then NatToString(n) else ['-'] + NatToString(-n)
  }

  /** The inverse of `IntToString`, defined on numerals with an optional minus sign. */
  function ParseInt(s: string): int
    requires |s| >= 1
    requires s[0] == '-' || IsDigit(s[0])
    requires forall i | 1 <= i < |s| :: IsDigit(s[i])
  {
    if s[0] == '-' then 0 - ParseDigits(s[1..]) as int else ParseDigits(s)
  }

  /** `str` is one-to-one on integers, so keying by `str(gamePk)` is keying by `gamePk`. */
  lemma IntToStringRoundTrip(n: int)
    ensures ParseInt(IntToString(n)) == n
  {
    var s := IntToString(n);
    if n < 0 {
      assert s[1..] == NatToString(-n);
    }
  }

  lemma IntToStringInjective(a: int, b: int)
    ensures IntToString(a) == IntToString(b) <==> a == b
  {
    if IntToString(a) == IntToString(b) {
      IntToStringRoundTrip(a);
      IntToStringRoundTrip(b);
    }
  }

  function Pow10(w: nat): (p: nat)
    ensures p >= 1
  {
    if w == 0 then 1 else 10 * Pow10(w - 1)
  }

  /** The numeral of `n` zero-padded to exactly `w` digits, as `'%0*d' % (w, n)` for `n < 10^w`. */
  function PadDigits(n: nat, w: nat): (s: string)
    requires n < Pow10(w)
    ensures |s| == w
    ensures forall i | 0 <= i < w :: IsDigit(s[i])
    ensures ParseDigits(s) == n
  {
    if w == 0 then ""
    else
      var prior := PadDigits(n / 10, w - 1);
      var s := prior + [DigitChar(n % 10)];
      assert s[..|s| - 1] == prior;
      s
  }
}

=== FILE: upstream.dfy ===
/**
  The upstream service as a value. Each request of the ingest scripts is
  answered from it; a request it has no body for fails with `RequestFailed`
  (a network error, a non-2xx status, a body that is not JSON). Every
  operation that talks to the service reports the requests it issued, in
  order, together with its result.
 */
module Upstream {
  import opened Wrappers
  import opened Raw

  datatype Request =
    | DivisionsRequest
    | TeamsRequest
    | RosterRequest(team: int)
    | ScheduleRequest(team: int, startDate: string, endDate: string)
    | FeedRequest(game: string)

  datatype Service = Service(
    divisions: Option<DivisionsBody>,
    teams: Option<TeamsBody>,
    rosters: map<int, RosterBody>,
    schedules: map<(int, string, string), ScheduleBody>,
    feeds: map<string, FeedBody>)

  /** What an operation asked upstream for, and what it produced. */
  datatype Fetched<T> = Fetched(requests: seq<Request>, result: Result<T, Error>)

  function FetchDivisions(svc: Service): (r: Result<DivisionsBody, Error>)
    ensures r.Err? ==> r.error == RequestFailed
  {
    if svc.divisions.Some? then Ok(svc.divisions.value) else Err(RequestFailed)
  }

  function FetchTeams(svc: Service): (r: Result<TeamsBody, Error>)
    ensures r.Err? ==> r.error == RequestFailed
  {
    if svc.teams.Some? then Ok(svc.teams.value) else Err(RequestFailed)
  }

  function FetchRoster(svc: Service, team: int): (r: Result<RosterBody, Error>)
    ensures r.Err? ==> r.error == RequestFailed
  {
    if team in svc.rosters then Ok(svc.rosters[team]) else Err(RequestFailed)
  }

  function FetchSchedule(svc: Service, team: int, start: string, end: string): (r: Result<ScheduleBody, Error>)
    ensures r.Err? ==> r.error == RequestFailed
  {
    if (team, start, end) in svc.schedules then Ok(svc.schedules[(team, start, end)]) else Err(RequestFailed)
  }

  function FetchFeed(svc: Service, game: string): (r: Result<FeedBody, Error>)
    ensures r.Err? ==> r.error == RequestFailed
  {
    if game in svc.feeds then Ok(svc.feeds[game]) else Err(RequestFailed)
  }
}

=== FILE: wrappers.dfy ===
/**
  Failure-compatible wrappers used throughout the model, and the exceptions
  the ingest pipeline can raise. A Python exception that propagates out of a
  function becomes an `Err`; a `try`/`except` becomes `Catch`.
 */
module Wrappers {

  /** A value that may be absent: a JSON key that may be missing, a SQL NULL. */
  datatype Option<+T> = None | Some(value: T)

  /** The outcome of a computation that may raise. */
  datatype Result<+T, +E> = Ok(value: T) | Err(error: E) {

    predicate IsFailure() {
      Err?
    }

    function PropagateFailure<U>(): Result<U, E>
      requires Err?
    {
      Err(error)
    }

    function Extract(): T
      requires Ok?
    {
      value
    }
  }

  /** The exceptions of the ingest scripts, by cause. */
  datatype Error =
    | KeyError        // a JSON object is subscripted with a key it lacks
    | IndexError      // a list is subscripted past its end
    | RequestFailed   // the HTTP request, or decoding its body as JSON, failed
    | FileNotFound    // last_update.txt cannot be opened for reading
    | OverflowError   // today + 1 day lies past the last representable date
    | ConfigMissing   // database.ini has no [postgresql] section
    | ConnectFailed   // the database refused the connection
    | DatabaseError   // an INSERT or the COMMIT was refused by the store

  /**
    `try: <r> except <caught>: <handler>`. Only the named exception is
    handled; every other one propagates unchanged.
   */
  function Catch<T>(r: Result<T, Error>, caught: Error, handler: T): (c: Result<T, Error>)
    ensures r.Ok? ==> c == r
    ensures r == Err(caught) ==> c == Ok(handler)
    ensures c.Err? ==> r.Err? && c.error == r.error && c.error != caught
  {
    if r == Err(caught) then Ok(handler) else r
  }
}
